=== FILE: README.md ===
# Transaction service and chart aggregations

A Dafny model of the core of a personal income/expense tracker. It covers
three parts:

- **The transaction routes** (`backend/routes/transactions.js`). These are
  list, create, update, delete and summary over a store of transaction
  records, each owned by one user.
- **The mongoose `Transaction` schema** (`backend/models/Transaction.js`).
  This covers its constraints, defaults and trimming.
- **The two chart aggregations** (`frontend/src/components/Charts.js`). One
  is the expense breakdown by category. The other is the monthly
  income/expense bars for the last six months.

Modelling choices:

- The store is a finite map from document id to record.
- Each handler is a pure function, or a method where the database hands back
  records in an unspecified order. Create, update and delete return the
  store after the call together with an `Ok` value or a failure carrying
  its HTTP status: 400, 403, 404 or 500. List and summary change nothing
  and return only the listing or the summary.
- Amounts are integer cents, so "at least 0.01" becomes "at least 1". The
  float rounding of `toFixed(2)` is then the identity.
- Dates are `(year, month, day)` triples with a calendar validity check.
- A stored record need not have gone through the schema's `trim` setters: one
  written before they were declared, or outside mongoose, is loaded as it was
  stored. `save()` runs the validators only (`SaveValid`), so update saves
  such a record with its untrimmed strings. Records written by create satisfy
  the whole schema (`SchemaValid`).
- The database id generator and the clock are parameters (`newId`, `now`).
  So is the authenticated caller.

Files, one module each:

| file | module | contents |
|---|---|---|
| `wrappers.dfy` | `Wrappers` | an optional value: a field present with a value, or absent |
| `text.dfy` | `Text` | `String.prototype.trim` and its laws |
| `lexicographic.dfy` | `Lexicographic` | code-unit string order, the order `localeCompare` gives on month keys |
| `decimal.dfy` | `Decimal` | `String(n)`, `padStart`, and the value of a digit string |
| `sums.dfy` | `Sums` | left-to-right sums, and their independence of order |
| `dates.dfy` | `Dates` | calendar dates and their order |
| `transaction_model.dfy` | `TransactionModel` | the record, the schema predicate, `Transaction.create` with defaults |
| `summary.dfy` | `Summaries` | the `reduce` of the summary route |
| `transaction_routes.dfy` | `TransactionRoutes` | validators and the five handlers |
| `plain_object.dfy` | `PlainObject` | a plain object used as a dictionary: lookup and assignment on its own keys |
| `category_chart.dfy` | `CategoryChart` | `expenseByCategory`, corrected and as written |
| `monthly_chart.dfy` | `MonthlyChart` | the month key, grouping, sorting, `slice(-6)` |

The update handler tests `type`, `amount`, `category` and `date` for
truthiness before assigning them (`backend/routes/transactions.js`, lines
114-118). Read on their own, these tests suggest that a falsy value in the
body is ignored. But the `optional()` validators at lines 75-88 run first.
They answer 400 for an empty type, a zero amount, a blank category or an
empty date, so a falsy value never reaches the assignment.
`TransactionRoutes.ValidatedFieldsAreTruthy` proves that after validation,
"truthy" and "supplied" coincide.

## Model

| member | source | states |
|---|---|---|
| TransactionModel.Construct | backend/models/Transaction.js:3-38 | the document is accepted exactly when user, type, amount ≥ 0, a category that is not blank, and valid dates are present after defaults; it is then schema-valid, with category and description trimmed, description `""` when absent, and date/createdAt `now` when absent; otherwise at least one path is reported, and each of user, type, amount, category, date and createdAt is reported exactly when it is at fault |
| TransactionModel.PathErrorsOfDraft | backend/models/Transaction.js:4-37 | no path fails iff every required path is present and valid; user fails iff missing; type iff missing or not income/expense; amount iff missing or negative; category iff missing or all white space; date and createdAt iff not a valid day once `now` fills an absent one |
| TransactionRoutes.ValidateCreate | backend/routes/transactions.js:32-39 | with `isIn` as the schema's `IsKind` and `isISO8601` as `IsValidDate`, each of type, amount, category and date is reported iff it is missing or unacceptable (type not income/expense, amount < 0.01, category blank after trim, date invalid); user and createdAt are never reported |
| TransactionRoutes.ValidateUpdate | backend/routes/transactions.js:75-88 | the same rules made optional: a field is reported iff it is present and unacceptable |
| TransactionRoutes.CategoryAcceptedUnlessBlank | backend/routes/transactions.js:38 | `trim().notEmpty()` accepts a category iff it is not all white space |
| TransactionRoutes.Create | backend/routes/transactions.js:43-64 | a 400 from validation or a 500 from `Transaction.create` leaves the store as it was |
| TransactionRoutes.CreateValidation | backend/routes/transactions.js:43-46 | create answers 400 iff some required field is missing or unacceptable, and the 400 lists exactly the failing fields, never none |
| TransactionRoutes.CreateDraftAccepted | backend/routes/transactions.js:51-58 | `CreateDraft` of the `Sanitize`d body: the document built from a valid body passes the schema, owned by the caller, with the body's values (category and description trimmed), and meets the route's stricter amount bound |
| TransactionRoutes.CreateSucceeds | backend/routes/transactions.js:48-60 | create succeeds iff the body is valid, the clock gives a valid date and the new id is unused; it then adds exactly one record under the new id, owned by the caller, with description `""` when none was given and createdAt `now` |
| TransactionRoutes.CreateIgnoresBodyUser | backend/routes/transactions.js:52 | a `user` field in the body has no effect on create |
| TransactionRoutes.CreatePreservesWellFormed | backend/routes/transactions.js:51-58 | create keeps every record schema-valid and filed under its own id, and keeps a store whose records pass the validators (trimmed or not) so |
| TransactionRoutes.ValidatedFieldsAreTruthy | backend/routes/transactions.js:114-118 | after validation and `Sanitize` (the `trim()` write-back), a field is truthy iff it was supplied (the category after its trim) |
| TransactionRoutes.Update | backend/routes/transactions.js:92-124 | a 400, 404, 403 or a 500 from `save()` leaves the store as it was |
| TransactionRoutes.UpdateKeepsUntrimmedCategory | backend/routes/transactions.js:112-121 | a stored category `" Food "` that never went through the setter: the owner's amount change is saved with a 200 and the category stays as it was |
| TransactionRoutes.UpdateErrorOrder | backend/routes/transactions.js:92-109 | 400 iff some supplied field is unacceptable, whatever the id, listing those fields; 404 iff the body is valid and the id is unknown; 403 iff the body is valid, the id is known and the caller is not the owner |
| TransactionRoutes.ApplyUpdateKeepsSchema | backend/routes/transactions.js:112-120 | `ApplyUpdate`, the truthiness-guarded assignments: with a valid body, a record that passes the validators still does, a schema-valid record stays schema-valid, and an amount of at least 0.01 stays so |
| TransactionRoutes.UpdateByOwner | backend/routes/transactions.js:111-121 | on a store whose records pass the validators (trimmed or not), update succeeds iff the body is valid, the id is known and the caller owns it; it then overwrites exactly the supplied fields (category and description trimmed, an empty description included) and keeps id, owner, createdAt and every other record; the result passes the validators, and is schema-valid if the old record was |
| TransactionRoutes.UpdatePreservesWellFormed | backend/routes/transactions.js:112-121 | update keeps every record schema-valid and filed under its own id, and keeps a store whose records pass the validators so |
| TransactionRoutes.UpdateIgnoresBodyUser | backend/routes/transactions.js:112 | a `user` field in the body has no effect on update |
| TransactionRoutes.Delete | backend/routes/transactions.js:132-153 | 404 iff the id is unknown, 403 iff it belongs to someone else, the store unchanged in both cases; otherwise exactly that id is removed and every other record is untouched; a schema-valid store, or one whose records pass the validators, stays so |
| TransactionRoutes.DeleteShrinksListing | backend/routes/transactions.js:141-148 | on any store whose records sit under their own ids (trimmed or not), after a delete by the owner, the caller's previous listing without the deleted record lists the new store, and it is one shorter |
| TransactionRoutes.ListingAfterDeleteOmits | backend/routes/transactions.js:147 | after a successful delete, no listing of the caller's records contains the deleted id |
| TransactionRoutes.CreateExtendsListing | backend/routes/transactions.js:51-60 | on any store, after a successful create, the caller's previous listing plus the new record lists the new store |
| TransactionRoutes.SortNewestFirst | backend/routes/transactions.js:14-16 | the records come back ordered by date descending, the same records with the same multiplicities |
| TransactionRoutes.InsertNewestFirst | backend/routes/transactions.js:14-16 | inserting a record into a newest-first list keeps it newest first and adds exactly that record |
| TransactionRoutes.Find | backend/routes/transactions.js:14 | `find({ user })` returns each of the caller's records exactly once and nothing else |
| TransactionRoutes.List | backend/routes/transactions.js:12-18 | the listing holds exactly the caller's records, once each, ordered by date descending |
| TransactionRoutes.PermutationEnumerates | backend/routes/transactions.js:14-16 | any reordering of a listing of the caller's records is again such a listing |
| TransactionRoutes.EnumerationsArePermutations | backend/routes/transactions.js:160 | any two listings of the caller's records are permutations of each other |
| TransactionRoutes.SummaryRoute | backend/routes/transactions.js:158-176 | the summary's totals are the income sum and the sum of all other amounts over every listing of the caller's records, whatever order the database returns, and the balance is their difference |
| Summaries.SummaryIsSums | backend/routes/transactions.js:160-174 | `ComputeSummary`, through the `Reduce` fold of `Accumulate`, yields the sum of income amounts, the sum of every other amount (the else branch), their difference as balance, and all zeros for no records |
| Summaries.SummaryOrderIndependent | backend/routes/transactions.js:162-172 | permuting the records does not change the summary |
| PlainObject.PutSpec | frontend/src/components/Charts.js:33-37 | an assignment to a key of the grouping object sets that key alone, keeps keys distinct and leaves other keys' values |
| CategoryChart.TallyAdds | frontend/src/components/Charts.js:33-37 | one step adds the amount to its category's total (a zero total replaced equals a zero total added to), leaves the other categories, and raises the total by the amount |
| CategoryChart.ExpenseByCategorySpec | frontend/src/components/Charts.js:28-44 | `ExpenseByCategory`, the grouping corrected to own keys only: each category occurs once; a category has a slice iff some expense has it, and its value is that category's expense sum; the slices add up to the expense sum; income records never contribute |
| CategoryChart.ExpenseByCategoryEntries | frontend/src/components/Charts.js:30-43 | read slice by slice: each slice names a category that has an expense and holds its sum, and the slice names are exactly the expense categories |
| CategoryChart.IncomeOnlyIsEmpty | frontend/src/components/Charts.js:29-40 | without expense records the breakdown is empty |
| CategoryChart.BreakdownMatchesSummary | frontend/src/components/Charts.js:29-38 | for schema-valid types the slices add up to the summary's expense total |
| CategoryChart.RenderSpec | frontend/src/components/Charts.js:40-43 | `Render`, the `Object.entries(...).map` with `toFixed`: rendering the entries fails iff some value is a string, and otherwise keeps exactly the keys |
| CategoryChart.AsWrittenAgrees | frontend/src/components/Charts.js:31-43 | `ExpenseByCategoryAsWritten` (`Render` of `GroupAsWritten`, the fold of `TallyAsWritten` over a plain object): when no expense category names an inherited `Object.prototype` property, the code as written computes the breakdown |
| CategoryChart.AsWrittenMishandlesCollisions | frontend/src/components/Charts.js:31-43 | as written, an expense in a category named after an inherited method makes the breakdown throw, and a `__proto__` category never appears, though the breakdown has a slice for it |
| CategoryChart.ToStringCategoryExample | frontend/src/components/Charts.js:32-42 | one 5.00 expense in category `toString`: the code as written throws, the breakdown is one slice of 500 cents |
| Decimal.PaddedMonth | frontend/src/components/Charts.js:51-53 | months 1 to 12 padded to width 2 are two digits denoting the month |
| Decimal.StrLessDigits | frontend/src/components/Charts.js:67 | on digit strings of equal length, string order is numeric order |
| Lexicographic.StrLessTransitive | frontend/src/components/Charts.js:67 | the key comparison is transitive |
| Lexicographic.StrLessTotal | frontend/src/components/Charts.js:67 | of two different keys, one sorts before the other |
| MonthlyChart.MonthKeyShape | frontend/src/components/Charts.js:50-53 | `MonthKey`: a key of a real day is the year, a dash and two digits denoting the month |
| MonthlyChart.MonthKeySameMonth | frontend/src/components/Charts.js:50-53 | two real days share a key iff they fall in the same month |
| MonthlyChart.MonthKeyOrder | frontend/src/components/Charts.js:50-53 | for four-digit years, one key sorts before another iff its month is earlier |
| MonthlyChart.ShortYearSortsLate | frontend/src/components/Charts.js:51 | with the year unpadded, January 999 sorts after January 1000 |
| MonthlyChart.AddToBucketStep | frontend/src/components/Charts.js:55-63 | one step adds the amount to its key's income (income records) or expense (all others), leaves other keys, keeps keys distinct, and raises the row totals by the amount |
| MonthlyChart.GroupBySpec | frontend/src/components/Charts.js:49-64 | `GroupBy`, the `reduce` into per-key buckets: one row per key; a key has a row iff some transaction has that key, holding that key's income sum and the sum of its other amounts |
| MonthlyChart.GroupTotals | frontend/src/components/Charts.js:59-63 | the rows' incomes add up to all income amounts and their expenses to all other amounts |
| MonthlyChart.InsertByMonthSpec | frontend/src/components/Charts.js:67 | inserting a row with a new key into ascending rows keeps them ascending and adds exactly that row |
| MonthlyChart.SortByMonthSpec | frontend/src/components/Charts.js:66-67 | `SortByMonth`: sorting rows with distinct keys gives them strictly ascending, as a permutation |
| MonthlyChart.AscendingUnique | frontend/src/components/Charts.js:67 | two strictly ascending arrangements of the same rows are equal |
| MonthlyChart.AnySortAgrees | frontend/src/components/Charts.js:66-67 | any ascending arrangement of the grouped rows is the sorted result, whatever the sort algorithm |
| MonthlyChart.SortedRowsKeys | frontend/src/components/Charts.js:55-67 | the sorted rows carry exactly the keys that have a transaction, one row each |
| MonthlyChart.LastRowsShape | frontend/src/components/Charts.js:66-68 | the kept rows are strictly ascending, min(6, number of keys) of them, and a suffix of the sorted rows |
| MonthlyChart.LastRowsDropEarliest | frontend/src/components/Charts.js:68 | a key that is not kept sorts before every kept one |
| MonthlyChart.MonthlyDataSpec | frontend/src/components/Charts.js:46-68 | `MonthlyData`, the monthly rows: strictly ascending, min(6, number of months) of them, the suffix of the full sorted list, each a month with a transaction and that month's income and other sums, the dropped months earlier than every kept one |
| MonthlyChart.MonthlyMatchesSummary | frontend/src/components/Charts.js:59-68 | with at most six months, the bars add up to the summary's income and expense totals |
| MonthlyChart.MonthlyChronological | frontend/src/components/Charts.js:50-68 | for real days of four-digit years, every transaction of an earlier bar falls in an earlier month than every transaction of a later bar |
| Text.TrimIsInfix | backend/models/Transaction.js:22 | `Trim` removes white space at the front and at the back and nothing else: the result is an infix of the string with only white space before and after it |
| Text.TrimIsTrimmed | backend/models/Transaction.js:22 | a trimmed string has no white space at either end |
| Text.TrimIdempotent | backend/models/Transaction.js:26 | trimming twice is trimming once, so the schema setter leaves a route-trimmed value unchanged |
| Text.TrimEmptyIffAllWhitespace | backend/routes/transactions.js:38 | a string trims to empty iff it is all white space |

## Left out

- Authentication (`protect`), the HTTP layer, MongoDB and concurrency are outside the model. The caller's id is a parameter, the store is a map, and the generated id and the clock are parameters of create.
- The 500 responses for database failures are not modelled. Only the 500s that follow from the model are: a duplicate generated id, a schema rejection on save, and a clock that is not a valid date.
- Request bodies whose fields are not strings or numbers (`null`, arrays, objects) are left out; each field is absent or a value of its type.
- Parsing dates with `isISO8601`, time of day and time zones are left out. A date is a calendar day, valid or not.
- `TransactionRoutes.ValidateCreate`, `TransactionRoutes.ValidateUpdate`: `isISO8601()` is called without `strict`, so it accepts any day up to 31 in any month. The `Date` cast then rolls such a day into the next month, so `2024-02-30` is stored as 1 March with a 201 or a 200. The model treats such a day as invalid and answers 400. The roll-over of JavaScript's `Date` is not modelled.
- `TransactionRoutes.UpdateErrorOrder`, `TransactionRoutes.Update`, `TransactionRoutes.Delete`: ids are opaque values. A route id that is not a well-formed ObjectId makes `findById` throw a cast error, and the `catch` at lines 122-124 and 149-151 answers 500, not 404. The model's 404 covers only well-formed ids that name no record.
- Amounts are integer cents. Float addition, `isFloat` on strings, `toFixed(2)` and `parseFloat` are left out.
- `TransactionRoutes.List`: records with the same date may come in any order, as with MongoDB's sort, which does not break ties. The model does not fix an order for them.
- `localeCompare` is modelled as code-unit order. For two keys whose years have the same number of digits, the keys differ first in a digit at the same place, and a collation that orders digits numerically gives that order. With years of different lengths, the model compares keys as code units, and a collation that ignores `-` may disagree: `"100-11"` and `"1001-01"` are an example.
- `toLocaleDateString` month labels, Recharts rendering and colours are left out.
- `Object.entries` puts integer-like keys before the others. The breakdown's slice order is not stated, only its contents.
- `MonthlyChart.MonthKeyOrder`: stated for four-digit years only. `MonthlyChart.ShortYearSortsLate` shows that shorter years sort out of calendar order.
- `MonthlyChart.MonthlyMatchesSummary`: stated for at most six months. With more, the dropped months' amounts are missing from the bars, as `MonthlyChart.LastRowsDropEarliest` describes.

## Findings

| source | as written | input that shows it | evidently intended | confidence | as-written member | corrected member |
|---|---|---|---|---|---|---|
| frontend/src/components/Charts.js:30-43 | `categoryMap` is a plain object, so a category named after an `Object.prototype` member reads an inherited value. For `toString`, `constructor` and the other methods, `+=` stores a string, and `toFixed` then throws. For `__proto__` the assignment is ignored, so the category never appears. | one expense of 5.00 in category `toString` | one slice per expense category holding its sum: `[{ name: "toString", value: 5 }]` | high; not executed | CategoryChart.AsWrittenMishandlesCollisions | CategoryChart.ExpenseByCategorySpec |

=== FILE: category_chart.dfy ===
/**
 * The expense-by-category breakdown behind the pie chart: the expense
 * records, grouped by category name, each group's amounts added up.
 */
module CategoryChart {
  import opened Wrappers
  import opened TransactionModel
  import opened Sums
  import opened Summaries
  import opened Dates
  import opened PlainObject

  /** A pie slice `{ name, value }`, the value in cents. */
  type Slice = Entry<int>

  /** The values added up. */
  function Total(m: seq<Slice>): int {
    if m == [] then 0 else m[0].value + Total(m[1..])
  }

  /** Overwriting a value changes the total by the difference. */
  lemma {:induction false} PutTotal(m: seq<Slice>, name: string, v: int)
    ensures Total(Put(m, name, v)) == Total(m) - Lookup(m, name).GetOr(0) + v
  {
    if m != [] && m[0].name != name {
      PutTotal(m[1..], name, v);
    }
  }

  // ----- the breakdown -------------------------------------------------------

  /**
   * One `forEach` step: when the category already holds a truthy total the
   * amount is added to it, otherwise the amount is stored as the total.
   */
  function Tally(m: seq<Slice>, t: Transaction): seq<Slice> {
    var current := Lookup(m, t.category);
    if current.Some? && current.value != 0 then Put(m, t.category, current.value + t.amount)
    else Put(m, t.category, t.amount)
  }

  /**
   * The truthiness test never matters: a zero total replaced by the amount is
   * the same as the amount added to it.
   */
  lemma TallyAdds(m: seq<Slice>, t: Transaction)
    ensures Lookup(Tally(m, t), t.category) == Some(Lookup(m, t.category).GetOr(0) + t.amount)
    ensures forall k :: k != t.category ==> Lookup(Tally(m, t), k) == Lookup(m, k)
    ensures Total(Tally(m, t)) == Total(m) + t.amount
  {
    var current := Lookup(m, t.category);
    if current.Some? && current.value != 0 {
      PutSpec(m, t.category, current.value + t.amount);
      PutTotal(m, t.category, current.value + t.amount);
    } else {
      PutSpec(m, t.category, t.amount);
      PutTotal(m, t.category, t.amount);
    }
  }

  /**
   * `expenseByCategory`: the records whose type is `"expense"`, tallied by
   * category in order (the `filter` and the `forEach` taken together).
   */
  function ExpenseByCategory(ts: seq<Transaction>): seq<Slice> {
    if ts == [] then []
    else
      var m := ExpenseByCategory(ts[..|ts| - 1]);
      var t := ts[|ts| - 1];
      if t.kind == Expense then Tally(m, t) else m
  }

  /** Some expense record carries category `c`. */
  predicate HasExpense(ts: seq<Transaction>, c: string) {
    exists i :: 0 <= i < |ts| && ts[i].kind == Expense && ts[i].category == c
  }

  /** The amounts of the expense records in category `c`, added up. */
  function CategorySum(ts: seq<Transaction>, c: string): int {
    if ts == [] then 0
    else
      var t := ts[|ts| - 1];
      CategorySum(ts[..|ts| - 1], c) + (if t.kind == Expense && t.category == c then t.amount else 0)
  }

  /** What a transaction adds to the expense breakdown. */
  function ExpenseAmount(t: Transaction): int {
    if t.kind == Expense then t.amount else 0
  }

  lemma {:induction false} NoExpenseNoSum(ts: seq<Transaction>, c: string)
    ensures !HasExpense(ts, c) ==> CategorySum(ts, c) == 0
  {
    if ts != [] {
      HasExpenseSnoc(ts, c);
      NoExpenseNoSum(ts[..|ts| - 1], c);
    }
  }

  lemma HasExpenseSnoc(ts: seq<Transaction>, c: string)
    requires ts != []
    ensures HasExpense(ts, c) <==>
      HasExpense(ts[..|ts| - 1], c) || (ts[|ts| - 1].kind == Expense && ts[|ts| - 1].category == c)
  {
    var p := ts[..|ts| - 1];
    if HasExpense(ts, c) {
      var i :| 0 <= i < |ts| && ts[i].kind == Expense && ts[i].category == c;
      if i < |p| {
        assert p[i] == ts[i];
      }
    }
    if HasExpense(p, c) {
      var i :| 0 <= i < |p| && p[i].kind == Expense && p[i].category == c;
      assert ts[i] == p[i];
    }
  }

  /**
   * The breakdown has one entry per category, its keys are exactly the
   * categories of the expense records, and each value is that category's
   * expense sum. Income records never contribute.
   */
  lemma {:induction false} ExpenseByCategorySpec(ts: seq<Transaction>)
    ensures DistinctNames(ExpenseByCategory(ts))
    ensures forall c :: (Lookup(ExpenseByCategory(ts), c) ==
      if HasExpense(ts, c) then Some(CategorySum(ts, c)) else None)
    ensures Total(ExpenseByCategory(ts)) == Sum(ts, ExpenseAmount)
  {
    if ts != [] {
      var p := ts[..|ts| - 1];
      var t := ts[|ts| - 1];
      var m := ExpenseByCategory(p);
      ExpenseByCategorySpec(p);
      forall c ensures HasExpense(ts, c) <==> HasExpense(p, c) || (t.kind == Expense && t.category == c) {
        HasExpenseSnoc(ts, c);
      }
      var r := ExpenseByCategory(ts);
      forall c ensures (Lookup(r, c) == if HasExpense(ts, c) then Some(CategorySum(ts, c)) else None) {
        assert CategorySum(ts, c) == CategorySum(p, c) + (if t.kind == Expense && t.category == c then t.amount else 0);
        if t.kind == Expense {
          TallyAdds(m, t);
          NoExpenseNoSum(p, c);
        }
      }
      if t.kind == Expense {
        TallyAdds(m, t);
        var cur := Lookup(m, t.category);
        PutSpec(m, t.category, if cur.Some? && cur.value != 0 then cur.value + t.amount else t.amount);
      }
    }
  }

  /**
   * Read entry by entry: each category occurs once, each entry is the sum of
   * a category that has an expense, and every expense category has an entry.
   */
  lemma ExpenseByCategoryEntries(ts: seq<Transaction>)
    ensures var r := ExpenseByCategory(ts);
      && DistinctNames(r)
      && (forall i :: 0 <= i < |r| ==> HasExpense(ts, r[i].name) && r[i].value == CategorySum(ts, r[i].name))
      && (forall c :: HasName(r, c) <==> HasExpense(ts, c))
  {
    var r := ExpenseByCategory(ts);
    ExpenseByCategorySpec(ts);
    forall c ensures HasName(r, c) <==> HasExpense(ts, c) {
      LookupFinds(r, c);
    }
    forall i | 0 <= i < |r| ensures HasExpense(ts, r[i].name) && r[i].value == CategorySum(ts, r[i].name) {
      LookupFinds(r, r[i].name);
    }
  }

  /** Without expense records there is nothing to chart. */
  lemma IncomeOnlyIsEmpty(ts: seq<Transaction>)
    requires forall i :: 0 <= i < |ts| ==> ts[i].kind != Expense
    ensures ExpenseByCategory(ts) == []
  {
    ExpenseByCategoryEntries(ts);
    FirstHasName(ExpenseByCategory(ts));
  }

  lemma FirstHasName<V>(m: seq<Entry<V>>)
    ensures m != [] ==> HasName(m, m[0].name)
  {
  }

  /**
   * The slices add up to the summary's expense total when every record is an
   * income or an expense, which the schema guarantees.
   */
  lemma {:induction false} BreakdownMatchesSummary(ts: seq<Transaction>)
    requires forall i :: 0 <= i < |ts| ==> IsKind(ts[i].kind)
    ensures Total(ExpenseByCategory(ts)) == ComputeSummary(ts).totalExpense
  {
    ExpenseByCategorySpec(ts);
    SummaryIsSums(ts);
    ExpenseSumIsOtherSum(ts);
  }

  lemma {:induction false} ExpenseSumIsOtherSum(ts: seq<Transaction>)
    requires forall i :: 0 <= i < |ts| ==> IsKind(ts[i].kind)
    ensures Sum(ts, ExpenseAmount) == Sum(ts, OtherAmount)
  {
    if ts != [] {
      var p := ts[..|ts| - 1];
      assert forall i :: 0 <= i < |p| ==> p[i] == ts[i];
      ExpenseSumIsOtherSum(p);
    }
  }

  // ----- the grouping object as written --------------------------------------

  /**
   * An own property of `categoryMap = {}` in the code as written: a number,
   * or the string that `+=` makes of an inherited method and an amount.
   */
  datatype Prop = Amount(n: int) | Text

  /** The methods every plain object inherits from `Object.prototype`. */
  const ObjectPrototypeMethods: set<string> := {
    "constructor", "hasOwnProperty", "isPrototypeOf", "propertyIsEnumerable",
    "toLocaleString", "toString", "valueOf", "__defineGetter__",
    "__defineSetter__", "__lookupGetter__", "__lookupSetter__"}

  /** The accessor `Object.prototype.__proto__`, whose setter ignores strings. */
  const ProtoAccessor := "__proto__"

  /**
   * One `forEach` step on a plain object. A category with no own property
   * still reads an inherited value: a method (truthy, so `+=` stores the
   * string concatenation) or, for `__proto__`, `Object.prototype` itself
   * (truthy, and the assignment of the resulting string is ignored).
   */
  function TallyAsWritten(m: seq<Entry<Prop>>, t: Transaction): seq<Entry<Prop>> {
    var c := t.category;
    var own := Lookup(m, c);
    if own.Some? then
      match own.value
      case Amount(n) => if n != 0 then Put(m, c, Amount(n + t.amount)) else Put(m, c, Amount(t.amount))
      case Text => m
    else if c == ProtoAccessor then m
    else if c in ObjectPrototypeMethods then Put(m, c, Text)
    else Put(m, c, Amount(t.amount))
  }

  function GroupAsWritten(ts: seq<Transaction>): seq<Entry<Prop>> {
    if ts == [] then []
    else
      var m := GroupAsWritten(ts[..|ts| - 1]);
      var t := ts[|ts| - 1];
      if t.kind == Expense then TallyAsWritten(m, t) else m
  }

  /** `Object.entries(...).map(... value.toFixed(2) ...)`: `None` when a string value makes `toFixed` throw. */
  function Render(m: seq<Entry<Prop>>): Option<seq<Slice>> {
    if m == [] then Some([])
    else
      match m[0].value
      case Text => None
      case Amount(n) =>
        var rest := Render(m[1..]);
        if rest.None? then None else Some([Entry(m[0].name, n)] + rest.value)
  }

  /** `expenseByCategory` as written: `None` is the `TypeError` that ends the render. */
  function ExpenseByCategoryAsWritten(ts: seq<Transaction>): Option<seq<Slice>> {
    Render(GroupAsWritten(ts))
  }

  /** The same association list with every value a number. */
  function Lift(m: seq<Slice>): seq<Entry<Prop>> {
    if m == [] then [] else [Entry(m[0].name, Amount(m[0].value))] + Lift(m[1..])
  }

  lemma {:induction false} LiftLookup(m: seq<Slice>, c: string)
    ensures Lookup(Lift(m), c) == if Lookup(m, c).Some? then Some(Amount(Lookup(m, c).value)) else None
  {
    if m != [] {
      LiftLookup(m[1..], c);
    }
  }

  lemma {:induction false} LiftPut(m: seq<Slice>, c: string, v: int)
    ensures Put(Lift(m), c, Amount(v)) == Lift(Put(m, c, v))
  {
    if m != [] && m[0].name != c {
      LiftPut(m[1..], c, v);
    }
  }

  lemma {:induction false} RenderLift(m: seq<Slice>)
    ensures Render(Lift(m)) == Some(m)
  {
    if m != [] {
      RenderLift(m[1..]);
      assert Lift(m)[1..] == Lift(m[1..]);
      assert m == [m[0]] + m[1..];
    }
  }

  /** Categories that do not collide with an inherited property. */
  predicate PlainCategories(ts: seq<Transaction>) {
    forall i :: 0 <= i < |ts| && ts[i].kind == Expense ==>
      ts[i].category !in ObjectPrototypeMethods && ts[i].category != ProtoAccessor
  }

  /** Without such a collision the code as written computes the breakdown. */
  lemma {:induction false} AsWrittenAgrees(ts: seq<Transaction>)
    requires PlainCategories(ts)
    ensures GroupAsWritten(ts) == Lift(ExpenseByCategory(ts))
    ensures ExpenseByCategoryAsWritten(ts) == Some(ExpenseByCategory(ts))
  {
    if ts != [] {
      var p := ts[..|ts| - 1];
      var t := ts[|ts| - 1];
      assert PlainCategories(p) by {
        forall i | 0 <= i < |p| && p[i].kind == Expense
          ensures p[i].category !in ObjectPrototypeMethods && p[i].category != ProtoAccessor
        {
          assert p[i] == ts[i];
        }
      }
      AsWrittenAgrees(p);
      if t.kind == Expense {
        TallyAsWrittenPlain(ExpenseByCategory(p), t);
      }
    }
    RenderLift(ExpenseByCategory(ts));
  }

  /** On a category that collides with nothing, one step as written is one step of the breakdown. */
  lemma TallyAsWrittenPlain(m: seq<Slice>, t: Transaction)
    requires t.category !in ObjectPrototypeMethods && t.category != ProtoAccessor
    ensures TallyAsWritten(Lift(m), t) == Lift(Tally(m, t))
  {
    LiftLookup(m, t.category);
    var cur := Lookup(m, t.category);
    LiftPut(m, t.category, if cur.Some? && cur.value != 0 then cur.value + t.amount else t.amount);
  }

  /**
   * What the object holds for the colliding names: a string under a method
   * name that an expense used, and never an own `__proto__`.
   */
  lemma {:induction false} AsWrittenCollisions(ts: seq<Transaction>)
    ensures forall c :: c in ObjectPrototypeMethods ==>
      Lookup(GroupAsWritten(ts), c) == if HasExpense(ts, c) then Some(Text) else None
    ensures Lookup(GroupAsWritten(ts), ProtoAccessor) == None
  {
    if ts != [] {
      var p := ts[..|ts| - 1];
      var t := ts[|ts| - 1];
      var m := GroupAsWritten(p);
      AsWrittenCollisions(p);
      forall c ensures HasExpense(ts, c) <==> HasExpense(p, c) || (t.kind == Expense && t.category == c) {
        HasExpenseSnoc(ts, c);
      }
      if t.kind == Expense {
        TallyAsWrittenStep(m, t);
      }
    }
  }

  /** One step touches only its own category, and a colliding name keeps its colliding value. */
  lemma TallyAsWrittenStep(m: seq<Entry<Prop>>, t: Transaction)
    ensures forall c :: c != t.category ==> Lookup(TallyAsWritten(m, t), c) == Lookup(m, c)
    ensures t.category in ObjectPrototypeMethods && (Lookup(m, t.category).None? || Lookup(m, t.category) == Some(Text))
      ==> Lookup(TallyAsWritten(m, t), t.category) == Some(Text)
    ensures t.category == ProtoAccessor && Lookup(m, ProtoAccessor).None?
      ==> Lookup(TallyAsWritten(m, t), ProtoAccessor).None?
  {
    var c := t.category;
    var own := Lookup(m, c);
    if own.Some? && own.value.Amount? {
      var n := own.value.n;
      PutSpec(m, c, Amount(if n != 0 then n + t.amount else t.amount));
    } else if own.None? && c != ProtoAccessor && c in ObjectPrototypeMethods {
      PutSpec(m, c, Text);
    } else if own.None? && c != ProtoAccessor {
      PutSpec(m, c, Amount(t.amount));
    }
  }

  /** Rendering fails exactly when some value is a string, and otherwise keeps the keys. */
  lemma {:induction false} RenderSpec(m: seq<Entry<Prop>>)
    ensures Render(m).None? <==> exists i :: 0 <= i < |m| && m[i].value == Text
    ensures Render(m).Some? ==> forall c :: HasName(Render(m).value, c) <==> HasName(m, c)
  {
    if m != [] {
      RenderSpec(m[1..]);
      if (exists i :: 0 <= i < |m[1..]| && m[1..][i].value == Text) {
        var i :| 0 <= i < |m[1..]| && m[1..][i].value == Text;
        assert m[i + 1].value == Text;
      }
      if (exists i :: 0 <= i < |m| && m[i].value == Text) && m[0].value != Text {
        var i :| 0 <= i < |m| && m[i].value == Text;
        assert m[1..][i - 1].value == Text;
      }
      if Render(m).Some? {
        var r := Render(m).value;
        var rest := Render(m[1..]).value;
        assert r == [r[0]] + rest;
        assert m == [m[0]] + m[1..];
        forall c ensures HasName(r, c) <==> HasName(m, c) {
          HasNameCons(r[0], rest, c);
          HasNameCons(m[0], m[1..], c);
        }
      }
    }
  }

  lemma HasNameCons<V>(e: Entry<V>, s: seq<Entry<V>>, c: string)
    ensures HasName([e] + s, c) <==> e.name == c || HasName(s, c)
  {
    var r := [e] + s;
    if HasName(r, c) && e.name != c {
      var i :| 0 <= i < |r| && r[i].name == c;
      assert s[i - 1] == r[i];
    }
    if HasName(s, c) {
      var i :| 0 <= i < |s| && s[i].name == c;
      assert r[i + 1] == s[i];
    }
    if e.name == c {
      assert r[0] == e;
    }
  }

  /**
   * As written, one expense in a category named after an inherited method
   * makes the breakdown throw, and expenses in category `__proto__` never
   * reach it; the breakdown above has a slice for each.
   */
  lemma AsWrittenMishandlesCollisions(ts: seq<Transaction>)
    ensures (exists c :: c in ObjectPrototypeMethods && HasExpense(ts, c)) ==> ExpenseByCategoryAsWritten(ts).None?
    ensures ExpenseByCategoryAsWritten(ts).Some? ==> !HasName(ExpenseByCategoryAsWritten(ts).value, ProtoAccessor)
    ensures HasExpense(ts, ProtoAccessor) ==> HasName(ExpenseByCategory(ts), ProtoAccessor)
  {
    var m := GroupAsWritten(ts);
    AsWrittenCollisions(ts);
    RenderSpec(m);
    LookupFinds(m, ProtoAccessor);
    ExpenseByCategoryEntries(ts);
    if exists c :: c in ObjectPrototypeMethods && HasExpense(ts, c) {
      var c :| c in ObjectPrototypeMethods && HasExpense(ts, c);
      TextIsStored(m, c);
    }
  }

  lemma {:induction false} TextIsStored(m: seq<Entry<Prop>>, c: string)
    requires Lookup(m, c) == Some(Text)
    ensures exists i :: 0 <= i < |m| && m[i].value == Text
  {
    if m[0].name != c {
      TextIsStored(m[1..], c);
      var i :| 0 <= i < |m[1..]| && m[1..][i].value == Text;
      assert m[i + 1].value == Text;
    }
  }

  /** A single 5.00 expense filed under `toString`: the code as written throws, the breakdown has one slice. */
  lemma ToStringCategoryExample()
    ensures var t := Transaction("t1", "u1", Expense, 500, "toString", "", Date(2024, 3, 1), Date(2024, 3, 1));
      && ExpenseByCategoryAsWritten([t]) == None
      && ExpenseByCategory([t]) == [Entry("toString", 500)]
  {
    var t := Transaction("t1", "u1", Expense, 500, "toString", "", Date(2024, 3, 1), Date(2024, 3, 1));
    assert [t][..0] == [];
    assert "toString" in ObjectPrototypeMethods;
    assert GroupAsWritten([t]) == [Entry("toString", Text)];
  }
}

=== FILE: dates.dfy ===
/**
 * Calendar dates. The `date` and `createdAt` paths of a transaction are
 * JavaScript `Date` values; the model keeps only their calendar day, which is
 * what the validators, the list order and the monthly chart look at.
 */
module Dates {

  datatype Date = Date(year: int, month: int, day: int)

  predicate IsLeapYear(y: int) {
    (y % 4 == 0 && y % 100 != 0) || y % 400 == 0
  }

  function DaysInMonth(y: int, m: int): int
    requires 1 <= m <= 12
  {
    if m == 2 then (if IsLeapYear(y) then 29 else 28)
    else if m == 4 || m == 6 || m == 9 || m == 11 then 30
    else 31
  }

  /** A real day of the proleptic Gregorian calendar. */
  predicate IsValidDate(d: Date) {
    1 <= d.month <= 12 && 1 <= d.day <= DaysInMonth(d.year, d.month)
  }

  /** `a` is not later than `b`. */
  predicate DateLe(a: Date, b: Date) {
    || a.year < b.year
    || (a.year == b.year && a.month < b.month)
    || (a.year == b.year && a.month == b.month && a.day <= b.day)
  }

  lemma DateLeTransitive(a: Date, b: Date, c: Date)
    requires DateLe(a, b) && DateLe(b, c)
    ensures DateLe(a, c)
  {
  }

  /** Same calendar month. */
  predicate SameMonth(a: Date, b: Date) {
    a.year == b.year && a.month == b.month
  }

  /** The month of `a` is strictly before the month of `b`. */
  predicate MonthBefore(a: Date, b: Date) {
    a.year < b.year || (a.year == b.year && a.month < b.month)
  }
}

=== FILE: decimal.dfy ===
/**
 * Decimal rendering of integers as JavaScript's template strings and
 * `String(n)` produce it, and `padStart` with a one-character filler.
 */
module Decimal {
  import opened Lexicographic

  function DigitChar(d: int): char
    requires 0 <= d <= 9
  {
    ('0' as int + d) as char
  }

  predicate IsDigit(c: char) {
    '0' <= c <= '9'
  }

  predicate AllDigits(s: string) {
    forall k :: 0 <= k < |s| ==> IsDigit(s[k])
  }

  function DigitValue(c: char): int
    requires IsDigit(c)
  {
    c as int - '0' as int
  }

  function Pow10(n: nat): (p: nat)
    ensures p >= 1
  {
    if n == 0 then 1 else 10 * Pow10(n - 1)
  }

  /** The number a string of digits denotes, most significant digit first. */
  function ValueOf(s: string): (v: nat)
    requires AllDigits(s)
    ensures v < Pow10(|s|)
  {
    if s == [] then 0
    else
      var d, p, rest := DigitValue(s[0]), Pow10(|s| - 1), ValueOf(s[1..]);
      DigitBelowNextPower(d, p, rest);
      d * p + rest
  }

  /** A digit times a power of ten, plus anything below that power, stays below the next power. */
  lemma DigitBelowNextPower(d: int, p: int, r: int)
    requires 0 <= d <= 9 && 0 <= r < p
    ensures 0 <= d * p + r < 10 * p
  {
    assert d * p <= 9 * p;
  }

  /** `String(n)` for a non-negative integer `n`: no leading zeros. */
  function NatToString(n: nat): (s: string)
    ensures AllDigits(s) && |s| >= 1
    ensures s[0] == '0' ==> n == 0
  {
    if n < 10 then [DigitChar(n)] else NatToString(n / 10) + [DigitChar(n % 10)]
  }

  /** `String(n)` for any integer `n`. */
  function IntToString(n: int): string {
    if n < 0 then "-" + NatToString(-n) else NatToString(n)
  }

  /** `s.padStart(width, fill)` for a one-character `fill`. */
  function PadStart(s: string, width: nat, fill: char): (r: string)
    ensures |r| == if |s| >= width then |s| else width
    ensures r[|r| - |s|..] == s
    ensures forall k :: 0 <= k < |r| - |s| ==> r[k] == fill
  {
    if |s| >= width then s else seq(width - |s|, _ => fill) + s
  }

  /** A leading digit outweighs everything after it. */
  lemma LeadingDigitDominates(da: int, db: int, p: int, ra: int, rb: int)
    requires 0 <= da < db && 0 <= ra < p && 0 <= rb
    ensures da * p + ra < db * p + rb
  {
    assert (da + 1) * p <= db * p;
  }

  lemma ShiftDigit(d: int, p: int, r0: int, r1: int, e: int)
    requires r1 == 10 * r0 + e
    ensures d * (10 * p) + r1 == 10 * (d * p + r0) + e
  {
  }

  lemma {:induction false} ValueOfSnoc(s: string, c: char)
    requires AllDigits(s) && IsDigit(c)
    ensures AllDigits(s + [c])
    ensures ValueOf(s + [c]) == 10 * ValueOf(s) + DigitValue(c)
    decreases |s|
  {
    var t := s + [c];
    assert AllDigits(t) by {
      forall k | 0 <= k < |t| ensures IsDigit(t[k]) {
        if k < |s| { assert t[k] == s[k]; }
      }
    }
    if s != [] {
      var d, p := DigitValue(s[0]), Pow10(|s| - 1);
      assert t[0] == s[0] && t[1..] == s[1..] + [c];
      ValueOfSnoc(s[1..], c);
      var r0, r1 := ValueOf(s[1..]), ValueOf(s[1..] + [c]);
      assert ValueOf(t) == d * Pow10(|s|) + r1;
      assert Pow10(|s|) == 10 * p;
      assert ValueOf(s) == d * p + r0;
      ShiftDigit(d, p, r0, r1, DigitValue(c));
    } else {
      assert t == [c];
    }
  }

  /** Reading back a rendered number gives the number. */
  lemma {:induction false} ValueOfNatToString(n: nat)
    ensures ValueOf(NatToString(n)) == n
  {
    if n < 10 {
      assert ValueOf([DigitChar(n)]) == DigitValue(DigitChar(n)) * 1 + ValueOf([]);
    } else {
      ValueOfNatToString(n / 10);
      ValueOfSnoc(NatToString(n / 10), DigitChar(n % 10));
    }
  }

  /** Four-digit numbers render as exactly four characters. */
  lemma FourDigitLength(n: nat)
    requires 1000 <= n <= 9999
    ensures |NatToString(n)| == 4
  {
    var a, b, c := n / 10, n / 100, n / 1000;
    assert a / 10 == b && b / 10 == c;
    assert 1 <= c <= 9 && 10 <= b <= 99 && 100 <= a <= 999;
    assert |NatToString(c)| == 1;
    assert |NatToString(b)| == |NatToString(c)| + 1;
    assert |NatToString(a)| == |NatToString(b)| + 1;
    assert |NatToString(n)| == |NatToString(a)| + 1;
  }

  /** Month numbers 1 to 12 padded to width 2 denote themselves in two digits. */
  lemma PaddedMonth(m: int)
    requires 1 <= m <= 12
    ensures var s := PadStart(NatToString(m), 2, '0');
            |s| == 2 && AllDigits(s) && ValueOf(s) == m
  {
    var s := PadStart(NatToString(m), 2, '0');
    if m < 10 {
      var c := DigitChar(m);
      assert NatToString(m) == [c];
      assert s == ['0', c];
      assert s[1..] == [c];
      assert ValueOf([c]) == m;
    } else {
      var c := DigitChar(m % 10);
      assert NatToString(m) == [DigitChar(1)] + [c];
      assert s == ['1', c];
      assert s[1..] == [c];
      assert ValueOf([c]) == m % 10;
    }
  }

  /** On digit strings of equal length, string order is numeric order. */
  lemma {:induction false} StrLessDigits(a: string, b: string)
    requires AllDigits(a) && AllDigits(b) && |a| == |b|
    ensures StrLess(a, b) <==> ValueOf(a) < ValueOf(b)
    decreases |a|
  {
    if a != [] {
      var p := Pow10(|a| - 1);
      var da, db := DigitValue(a[0]), DigitValue(b[0]);
      StrLessDigits(a[1..], b[1..]);
      assert ValueOf(a) == da * p + ValueOf(a[1..]);
      assert ValueOf(b) == db * p + ValueOf(b[1..]);
      if da < db {
        LeadingDigitDominates(da, db, p, ValueOf(a[1..]), ValueOf(b[1..]));
      } else if db < da {
        LeadingDigitDominates(db, da, p, ValueOf(b[1..]), ValueOf(a[1..]));
      }
    }
  }

  /** Equal-length digit strings that denote the same number are equal. */
  lemma {:induction false} ValueOfInjective(a: string, b: string)
    requires AllDigits(a) && AllDigits(b) && |a| == |b|
    ensures ValueOf(a) == ValueOf(b) ==> a == b
  {
    if a != b {
      StrLessTotal(a, b);
      StrLessDigits(a, b);
      StrLessDigits(b, a);
    }
  }
}

=== FILE: lexicographic.dfy ===
/**
 * Lexicographic order on strings by character code, the order the chart code
 * relies on when it sorts month keys with `localeCompare`.
 */
module Lexicographic {

  /** `a` sorts strictly before `b`. */
  predicate StrLess(a: string, b: string)
    decreases |a|
  {
    if a == [] then b != []
    else if b == [] then false
    else a[0] < b[0] || (a[0] == b[0] && StrLess(a[1..], b[1..]))
  }

  lemma {:induction false} StrLessIrreflexive(a: string)
    ensures !StrLess(a, a)
    decreases |a|
  {
    if a != [] {
      StrLessIrreflexive(a[1..]);
    }
  }

  lemma {:induction false} StrLessTransitive(a: string, b: string, c: string)
    requires StrLess(a, b) && StrLess(b, c)
    ensures StrLess(a, c)
    decreases |a|
  {
    if a != [] && a[0] == b[0] && b[0] == c[0] {
      StrLessTransitive(a[1..], b[1..], c[1..]);
    }
  }

  /** Any two different strings are ordered one way or the other. */
  lemma {:induction false} StrLessTotal(a: string, b: string)
    requires a != b
    ensures StrLess(a, b) || StrLess(b, a)
    decreases |a|
  {
    if a != [] && b != [] && a[0] == b[0] {
      assert a == [a[0]] + a[1..] && b == [b[0]] + b[1..];
      StrLessTotal(a[1..], b[1..]);
    }
  }

  lemma StrLessAsymmetric(a: string, b: string)
    requires StrLess(a, b)
    ensures !StrLess(b, a)
  {
    if StrLess(b, a) {
      StrLessTransitive(a, b, a);
      StrLessIrreflexive(a);
    }
  }

  /** Comparing two strings with prefixes of equal length compares the prefixes first. */
  lemma {:induction false} StrLessConcat(p: string, q: string, p': string, q': string)
    requires |p| == |p'|
    ensures StrLess(p + q, p' + q') <==> StrLess(p, p') || (p == p' && StrLess(q, q'))
    decreases |p|
  {
    if p == [] {
      assert p + q == q && p' + q' == q';
    } else {
      assert (p + q)[0] == p[0] && (p' + q')[0] == p'[0];
      assert (p + q)[1..] == p[1..] + q && (p' + q')[1..] == p'[1..] + q';
      StrLessConcat(p[1..], q, p'[1..], q');
      if p[0] == p'[0] && p[1..] == p'[1..] {
        assert p == [p[0]] + p[1..] && p' == [p'[0]] + p'[1..];
      }
      if p == p' {
        assert p[1..] == p'[1..];
      }
    }
  }
}

=== FILE: monthly_chart.dfy ===
/**
 * The monthly income/expense bars: every transaction filed under a `YYYY-MM`
 * key, each key's income and expense added up, the keys sorted, and the
 * last six kept.
 */
module MonthlyChart {
  import opened Wrappers
  import opened TransactionModel
  import opened Dates
  import opened Decimal
  import opened Lexicographic
  import opened Sums
  import opened Summaries
  import opened PlainObject

  // ----- the month key -------------------------------------------------------

  /** `${date.getFullYear()}-${String(date.getMonth() + 1).padStart(2, "0")}`. */
  function MonthKey(d: Date): string {
    IntToString(d.year) + "-" + MonthDigits(d)
  }

  /** The two-digit month part of a key. */
  function MonthDigits(d: Date): string {
    PadStart(IntToString(d.month), 2, '0')
  }

  /** A rendered integer starts with `-` exactly when it is negative. */
  lemma IntToStringSign(x: int)
    ensures |IntToString(x)| >= 1
    ensures IntToString(x)[0] == '-' <==> x < 0
  {
    if x >= 0 {
      assert IsDigit(NatToString(x)[0]);
    }
  }

  /** Different integers render differently. */
  lemma IntToStringInjective(x: int, y: int)
    requires IntToString(x) == IntToString(y)
    ensures x == y
  {
    IntToStringSign(x);
    IntToStringSign(y);
    if x >= 0 && y >= 0 {
      ValueOfNatToString(x);
      ValueOfNatToString(y);
    } else if x < 0 && y < 0 {
      assert NatToString(-x) == IntToString(x)[1..];
      assert NatToString(-y) == IntToString(y)[1..];
      ValueOfNatToString(-x);
      ValueOfNatToString(-y);
    }
  }

  /** A year, a dash and a two-character month can be taken apart again. */
  lemma SplitKey(y1: string, m1: string, y2: string, m2: string)
    requires |m1| == 2 && |m2| == 2
    requires y1 + ("-" + m1) == y2 + ("-" + m2)
    ensures y1 == y2 && m1 == m2
  {
    var k := y1 + ("-" + m1);
    assert |y1| == |y2|;
    assert y1 == k[..|y1|] && y2 == k[..|y2|];
    assert m1 == k[|y1| + 1..] && m2 == k[|y2| + 1..];
  }

  /** Keys with years of equal length compare by year, then by month. */
  lemma KeyLess(y1: string, m1: string, y2: string, m2: string)
    requires |y1| == |y2|
    ensures StrLess(y1 + ("-" + m1), y2 + ("-" + m2)) <==> StrLess(y1, y2) || (y1 == y2 && StrLess(m1, m2))
  {
    StrLessConcat(y1, "-" + m1, y2, "-" + m2);
    StrLessConcat("-", m1, "-", m2);
    StrLessIrreflexive("-");
  }

  /** A key of a real day is a year, a dash and a two-digit month. */
  lemma MonthKeyShape(d: Date)
    requires IsValidDate(d)
    ensures var m := MonthDigits(d);
      && MonthKey(d) == IntToString(d.year) + ("-" + m)
      && |m| == 2 && AllDigits(m) && ValueOf(m) == d.month
  {
    var y, m := IntToString(d.year), MonthDigits(d);
    assert IntToString(d.month) == NatToString(d.month);
    PaddedMonth(d.month);
    assert MonthKey(d) == (y + "-") + m;
    assert (y + "-") + m == y + ("-" + m);
  }

  /** Two real days share a key exactly when they fall in the same month. */
  lemma MonthKeySameMonth(a: Date, b: Date)
    requires IsValidDate(a) && IsValidDate(b)
    ensures MonthKey(a) == MonthKey(b) <==> SameMonth(a, b)
  {
    MonthKeyShape(a);
    MonthKeyShape(b);
    if MonthKey(a) == MonthKey(b) {
      SplitKey(IntToString(a.year), MonthDigits(a), IntToString(b.year), MonthDigits(b));
      IntToStringInjective(a.year, b.year);
    }
  }

  /** Four-digit years render as their four digits. */
  lemma FourDigitYear(y: int)
    requires 1000 <= y <= 9999
    ensures var s := IntToString(y);
      |s| == 4 && AllDigits(s) && ValueOf(s) == y
  {
    FourDigitLength(y);
    ValueOfNatToString(y);
  }

  /** Keys built from equal-length digit strings compare as the numbers they denote. */
  lemma DigitKeyOrder(ya: string, ma: string, yb: string, mb: string)
    requires AllDigits(ya) && AllDigits(yb) && |ya| == |yb|
    requires AllDigits(ma) && AllDigits(mb) && |ma| == |mb|
    ensures StrLess(ya + ("-" + ma), yb + ("-" + mb)) <==>
      ValueOf(ya) < ValueOf(yb) || (ValueOf(ya) == ValueOf(yb) && ValueOf(ma) < ValueOf(mb))
  {
    KeyLess(ya, ma, yb, mb);
    StrLessDigits(ya, yb);
    StrLessDigits(ma, mb);
    if ValueOf(ya) == ValueOf(yb) {
      ValueOfInjective(ya, yb);
    }
  }

  /**
   * For four-digit years, string order on keys is chronological order on
   * months: what makes sorting the keys with a string comparison correct.
   */
  lemma MonthKeyOrder(a: Date, b: Date)
    requires IsValidDate(a) && IsValidDate(b)
    requires 1000 <= a.year <= 9999 && 1000 <= b.year <= 9999
    ensures StrLess(MonthKey(a), MonthKey(b)) <==> MonthBefore(a, b)
  {
    MonthKeyShape(a);
    MonthKeyShape(b);
    FourDigitYear(a.year);
    FourDigitYear(b.year);
    DigitKeyOrder(IntToString(a.year), MonthDigits(a), IntToString(b.year), MonthDigits(b));
  }

  /**
   * The year is not padded, so below year 1000 string order and calendar
   * order part ways: January 999 sorts after January 1000.
   */
  lemma ShortYearSortsLate()
    ensures var early, late := Date(999, 1, 1), Date(1000, 1, 1);
      MonthBefore(early, late) && StrLess(MonthKey(late), MonthKey(early))
  {
    var early, late := Date(999, 1, 1), Date(1000, 1, 1);
    assert IntToString(1) == "1";
    assert MonthDigits(early) == "01" && MonthDigits(late) == "01";
    assert IntToString(999) == "999";
    assert IntToString(1000) == "1000";
    assert MonthKey(late) == "1000-01" && MonthKey(early) == "999-01";
    assert StrLess("1000-01", "999-01");
  }

  // ----- grouping by month ---------------------------------------------------

  /** The key a transaction is filed under. */
  function TransactionMonth(t: Transaction): string {
    MonthKey(t.date)
  }

  /** A month's running `{ income, expense }`, in cents. */
  datatype Bucket = Bucket(income: int, expense: int)

  /** A row `{ month, income, expense }`: the month key and its bucket. */
  type MonthRow = Entry<Bucket>

  /*
   * The grouping is stated for any key function `keyOf`; the chart uses
   * `TransactionMonth`. Keeping the key abstract keeps the proofs about
   * grouping apart from the proofs about how keys are spelled.
   */

  /**
   * One `forEach` step: a key seen for the first time gets a zero bucket
   * (a month key never names an inherited property), then the amount goes
   * to income for an income record and to expense for any other.
   */
  function AddToBucket(g: seq<MonthRow>, t: Transaction, keyOf: Transaction -> string): seq<MonthRow> {
    var key := keyOf(t);
    var b := Lookup(g, key).GetOr(Bucket(0, 0));
    Put(g, key, if t.kind == Income then b.(income := b.income + t.amount) else b.(expense := b.expense + t.amount))
  }

  /** The grouping object after the `forEach`, in insertion order. */
  function GroupBy(ts: seq<Transaction>, keyOf: Transaction -> string): seq<MonthRow> {
    if ts == [] then [] else AddToBucket(GroupBy(ts[..|ts| - 1], keyOf), ts[|ts| - 1], keyOf)
  }

  /** Some transaction falls under `key`. */
  predicate HasKey(ts: seq<Transaction>, keyOf: Transaction -> string, key: string) {
    exists i :: 0 <= i < |ts| && keyOf(ts[i]) == key
  }

  /** The income amounts filed under `key`, added up. */
  function KeyIncome(ts: seq<Transaction>, keyOf: Transaction -> string, key: string): int {
    if ts == [] then 0
    else
      var t := ts[|ts| - 1];
      KeyIncome(ts[..|ts| - 1], keyOf, key) + (if keyOf(t) == key && t.kind == Income then t.amount else 0)
  }

  /** The amounts of every other record filed under `key`, added up. */
  function KeyExpense(ts: seq<Transaction>, keyOf: Transaction -> string, key: string): int {
    if ts == [] then 0
    else
      var t := ts[|ts| - 1];
      KeyExpense(ts[..|ts| - 1], keyOf, key) + (if keyOf(t) == key && t.kind != Income then t.amount else 0)
  }

  lemma HasKeySnoc(ts: seq<Transaction>, keyOf: Transaction -> string, key: string)
    requires ts != []
    ensures HasKey(ts, keyOf, key) <==> HasKey(ts[..|ts| - 1], keyOf, key) || keyOf(ts[|ts| - 1]) == key
  {
    var p := ts[..|ts| - 1];
    if HasKey(ts, keyOf, key) {
      var i :| 0 <= i < |ts| && keyOf(ts[i]) == key;
      if i < |p| {
        assert p[i] == ts[i];
      }
    }
    if HasKey(p, keyOf, key) {
      var i :| 0 <= i < |p| && keyOf(p[i]) == key;
      assert ts[i] == p[i];
    }
  }

  lemma {:induction false} NoKeyNoSums(ts: seq<Transaction>, keyOf: Transaction -> string, key: string)
    ensures !HasKey(ts, keyOf, key) ==> KeyIncome(ts, keyOf, key) == 0 && KeyExpense(ts, keyOf, key) == 0
  {
    if ts != [] {
      HasKeySnoc(ts, keyOf, key);
      NoKeyNoSums(ts[..|ts| - 1], keyOf, key);
    }
  }

  function RowIncome(e: MonthRow): int {
    e.value.income
  }

  function RowExpense(e: MonthRow): int {
    e.value.expense
  }

  /** Storing a bucket changes the row totals by the difference. */
  lemma {:induction false} PutRowSums(m: seq<MonthRow>, k: string, v: Bucket)
    ensures Sum(Put(m, k, v), RowIncome) == Sum(m, RowIncome) - Lookup(m, k).GetOr(Bucket(0, 0)).income + v.income
    ensures Sum(Put(m, k, v), RowExpense) == Sum(m, RowExpense) - Lookup(m, k).GetOr(Bucket(0, 0)).expense + v.expense
  {
    SumCons(Entry(k, v), [], RowIncome);
    SumCons(Entry(k, v), [], RowExpense);
    if m != [] {
      assert m == [m[0]] + m[1..];
      SumCons(m[0], m[1..], RowIncome);
      SumCons(m[0], m[1..], RowExpense);
      SumCons(Entry(k, v), m[1..], RowIncome);
      SumCons(Entry(k, v), m[1..], RowExpense);
      if m[0].name != k {
        PutRowSums(m[1..], k, v);
        SumCons(m[0], Put(m[1..], k, v), RowIncome);
        SumCons(m[0], Put(m[1..], k, v), RowExpense);
      }
    }
  }

  /** One step: the key's bucket gains the amount, every other key is untouched, the totals grow by it. */
  lemma AddToBucketStep(g: seq<MonthRow>, t: Transaction, keyOf: Transaction -> string)
    ensures var key := keyOf(t);
      var g' := AddToBucket(g, t, keyOf);
      var b := Lookup(g, key).GetOr(Bucket(0, 0));
      && Lookup(g', key) == Some(if t.kind == Income then Bucket(b.income + t.amount, b.expense)
                                 else Bucket(b.income, b.expense + t.amount))
      && (forall k :: k != key ==> Lookup(g', k) == Lookup(g, k))
      && (DistinctNames(g) ==> DistinctNames(g'))
      && Sum(g', RowIncome) == Sum(g, RowIncome) + IncomeAmount(t)
      && Sum(g', RowExpense) == Sum(g, RowExpense) + OtherAmount(t)
  {
    var key := keyOf(t);
    var b := Lookup(g, key).GetOr(Bucket(0, 0));
    var g' := AddToBucket(g, t, keyOf);
    if t.kind == Income {
      var b' := Bucket(b.income + t.amount, b.expense);
      assert g' == Put(g, key, b');
      PutSpec(g, key, b');
      PutRowSums(g, key, b');
      assert IncomeAmount(t) == t.amount && OtherAmount(t) == 0;
    } else {
      var b' := Bucket(b.income, b.expense + t.amount);
      assert g' == Put(g, key, b');
      PutSpec(g, key, b');
      PutRowSums(g, key, b');
      assert IncomeAmount(t) == 0 && OtherAmount(t) == t.amount;
    }
  }

  /** The bucket of one key after one step. */
  lemma AddToBucketLookup(g: seq<MonthRow>, t: Transaction, keyOf: Transaction -> string, k: string)
    ensures var b := Lookup(g, k).GetOr(Bucket(0, 0));
      Lookup(AddToBucket(g, t, keyOf), k) ==
        if keyOf(t) != k then Lookup(g, k)
        else if t.kind == Income then Some(Bucket(b.income + t.amount, b.expense))
        else Some(Bucket(b.income, b.expense + t.amount))
  {
    AddToBucketStep(g, t, keyOf);
  }

  lemma {:induction false} GroupByDistinct(ts: seq<Transaction>, keyOf: Transaction -> string)
    ensures DistinctNames(GroupBy(ts, keyOf))
  {
    if ts != [] {
      GroupByDistinct(ts[..|ts| - 1], keyOf);
      AddToBucketStep(GroupBy(ts[..|ts| - 1], keyOf), ts[|ts| - 1], keyOf);
    }
  }

  /** The bucket of one key: present exactly when a transaction has that key, holding its sums. */
  lemma {:induction false} GroupByLookup(ts: seq<Transaction>, keyOf: Transaction -> string, key: string)
    ensures Lookup(GroupBy(ts, keyOf), key) ==
      if HasKey(ts, keyOf, key) then Some(Bucket(KeyIncome(ts, keyOf, key), KeyExpense(ts, keyOf, key))) else None
  {
    if ts != [] {
      var p := ts[..|ts| - 1];
      var t := ts[|ts| - 1];
      GroupByLookup(p, keyOf, key);
      AddToBucketLookup(GroupBy(p, keyOf), t, keyOf, key);
      HasKeySnoc(ts, keyOf, key);
      assert KeyIncome(ts, keyOf, key) == KeyIncome(p, keyOf, key) + (if keyOf(t) == key && t.kind == Income then t.amount else 0);
      assert KeyExpense(ts, keyOf, key) == KeyExpense(p, keyOf, key) + (if keyOf(t) == key && t.kind != Income then t.amount else 0);
      NoKeyNoSums(p, keyOf, key);
    }
  }

  /**
   * One row per key that has a transaction and none for any other, each
   * holding that key's income sum and the sum of everything else.
   */
  lemma GroupBySpec(ts: seq<Transaction>, keyOf: Transaction -> string)
    ensures DistinctNames(GroupBy(ts, keyOf))
    ensures forall key :: (Lookup(GroupBy(ts, keyOf), key) ==
      if HasKey(ts, keyOf, key) then Some(Bucket(KeyIncome(ts, keyOf, key), KeyExpense(ts, keyOf, key))) else None)
  {
    GroupByDistinct(ts, keyOf);
    forall key ensures (Lookup(GroupBy(ts, keyOf), key) ==
      if HasKey(ts, keyOf, key) then Some(Bucket(KeyIncome(ts, keyOf, key), KeyExpense(ts, keyOf, key))) else None)
    {
      GroupByLookup(ts, keyOf, key);
    }
  }

  /** Grouping loses and invents nothing: the rows add up to the income and the other totals. */
  lemma {:induction false} GroupTotals(ts: seq<Transaction>, keyOf: Transaction -> string)
    ensures Sum(GroupBy(ts, keyOf), RowIncome) == Sum(ts, IncomeAmount)
    ensures Sum(GroupBy(ts, keyOf), RowExpense) == Sum(ts, OtherAmount)
  {
    if ts != [] {
      GroupTotals(ts[..|ts| - 1], keyOf);
      AddToBucketStep(GroupBy(ts[..|ts| - 1], keyOf), ts[|ts| - 1], keyOf);
    }
  }

  // ----- sorting and the last six months -------------------------------------

  /** Strictly ascending by month key. */
  predicate Ascending(s: seq<MonthRow>) {
    forall i, j :: 0 <= i < j < |s| ==> StrLess(s[i].name, s[j].name)
  }

  /** Places `e` before the first row whose key sorts after it. */
  function InsertByMonth(e: MonthRow, s: seq<MonthRow>): seq<MonthRow> {
    if s == [] || StrLess(e.name, s[0].name) then [e] + s else [s[0]] + InsertByMonth(e, s[1..])
  }

  /** `sort((a, b) => a.month.localeCompare(b.month))`, as an insertion sort. */
  function SortByMonth(g: seq<MonthRow>): seq<MonthRow> {
    if g == [] then [] else InsertByMonth(g[0], SortByMonth(g[1..]))
  }

  lemma SameMultisetSameNames(a: seq<MonthRow>, b: seq<MonthRow>, n: string)
    requires multiset(a) == multiset(b)
    ensures HasName(a, n) <==> HasName(b, n)
  {
    if HasName(a, n) {
      var i :| 0 <= i < |a| && a[i].name == n;
      assert a[i] in multiset(b);
      var j :| 0 <= j < |b| && b[j] == a[i];
    }
    if HasName(b, n) {
      var i :| 0 <= i < |b| && b[i].name == n;
      assert b[i] in multiset(a);
      var j :| 0 <= j < |a| && a[j] == b[i];
    }
  }

  /** Every row of a rearrangement of `s` plus `e` sorts after `x` when they all do. */
  lemma RearrangedAbove(r: seq<MonthRow>, s: seq<MonthRow>, e: MonthRow, x: string)
    requires multiset(r) == multiset(s) + multiset{e}
    requires StrLess(x, e.name)
    requires forall i :: 0 <= i < |s| ==> StrLess(x, s[i].name)
    ensures forall i :: 0 <= i < |r| ==> StrLess(x, r[i].name)
  {
    forall i | 0 <= i < |r| ensures StrLess(x, r[i].name) {
      var u := r[i];
      assert u in multiset(r);
      if u != e {
        assert u in multiset(s);
        var k :| 0 <= k < |s| && s[k] == u;
      }
    }
  }

  lemma PrependAscending(x: MonthRow, s: seq<MonthRow>)
    requires Ascending(s)
    requires forall i :: 0 <= i < |s| ==> StrLess(x.name, s[i].name)
    ensures Ascending([x] + s)
  {
    var r := [x] + s;
    assert forall i :: 0 < i < |r| ==> r[i] == s[i - 1];
  }

  lemma {:induction false} InsertByMonthSpec(e: MonthRow, s: seq<MonthRow>)
    requires Ascending(s) && !HasName(s, e.name)
    ensures Ascending(InsertByMonth(e, s))
    ensures multiset(InsertByMonth(e, s)) == multiset(s) + multiset{e}
  {
    if s == [] || StrLess(e.name, s[0].name) {
      forall i | 0 <= i < |s| ensures StrLess(e.name, s[i].name) {
        if i > 0 {
          StrLessTransitive(e.name, s[0].name, s[i].name);
        }
      }
      PrependAscending(e, s);
    } else {
      assert s[0].name != e.name;
      StrLessTotal(s[0].name, e.name);
      assert s == [s[0]] + s[1..];
      assert !HasName(s[1..], e.name) by {
        forall i | 0 <= i < |s[1..]| ensures s[1..][i].name != e.name {
          assert s[1..][i] == s[i + 1];
        }
      }
      InsertByMonthSpec(e, s[1..]);
      var rest := InsertByMonth(e, s[1..]);
      RearrangedAbove(rest, s[1..], e, s[0].name);
      PrependAscending(s[0], rest);
    }
  }

  /** Sorting rows with distinct keys yields them strictly ascending, nothing added or lost. */
  lemma {:induction false} SortByMonthSpec(g: seq<MonthRow>)
    requires DistinctNames(g)
    ensures Ascending(SortByMonth(g))
    ensures multiset(SortByMonth(g)) == multiset(g)
  {
    if g != [] {
      var tail := g[1..];
      assert DistinctNames(tail) by {
        forall i, j | 0 <= i < j < |tail| ensures tail[i].name != tail[j].name {
          assert tail[i] == g[i + 1] && tail[j] == g[j + 1];
        }
      }
      SortByMonthSpec(tail);
      assert !HasName(tail, g[0].name) by {
        forall i | 0 <= i < |tail| ensures tail[i].name != g[0].name {
          assert tail[i] == g[i + 1];
        }
      }
      SameMultisetSameNames(SortByMonth(tail), tail, g[0].name);
      InsertByMonthSpec(g[0], SortByMonth(tail));
      assert g == [g[0]] + tail;
    }
  }

  /**
   * Strictly ascending rows are determined by their contents: any correct
   * sort of the distinct month keys gives this same sequence.
   */
  lemma {:induction false} AscendingUnique(a: seq<MonthRow>, b: seq<MonthRow>)
    requires Ascending(a) && Ascending(b) && multiset(a) == multiset(b)
    ensures a == b
    decreases |a|
  {
    if a != [] && b != [] {
      AscendingHeads(a, b);
      MultisetTail(a);
      MultisetTail(b);
      AscendingTail(a);
      AscendingTail(b);
      AscendingUnique(a[1..], b[1..]);
      assert a == [a[0]] + a[1..] && b == [b[0]] + b[1..];
    } else {
      assert |multiset(a)| == |a| && |multiset(b)| == |b|;
    }
  }

  /** The first of two ascending arrangements of the same rows is the same row. */
  lemma AscendingHeads(a: seq<MonthRow>, b: seq<MonthRow>)
    requires Ascending(a) && Ascending(b) && multiset(a) == multiset(b)
    requires a != [] && b != []
    ensures a[0] == b[0]
  {
    assert a[0] in multiset(b);
    var k :| 0 <= k < |b| && b[k] == a[0];
    assert b[0] in multiset(a);
    var m :| 0 <= m < |a| && a[m] == b[0];
    NotBothLess(a[0].name, b[0].name);
    if k != 0 {
      assert StrLess(b[0].name, a[0].name);
    }
  }

  lemma AscendingTail(s: seq<MonthRow>)
    requires Ascending(s) && s != []
    ensures Ascending(s[1..])
  {
    forall i, j | 0 <= i < j < |s[1..]| ensures StrLess(s[1..][i].name, s[1..][j].name) {
      assert s[1..][i] == s[i + 1] && s[1..][j] == s[j + 1];
    }
  }

  lemma NotBothLess(x: string, y: string)
    ensures !(StrLess(x, y) && StrLess(y, x))
  {
    if StrLess(x, y) {
      StrLessAsymmetric(x, y);
    }
  }

  /** The number of bars the chart shows at most. */
  const ChartMonths := 6

  /** `slice(-n)`: the last `n` elements, or all of them when there are fewer. */
  function TakeLast<T>(s: seq<T>, n: nat): seq<T> {
    if |s| <= n then s else s[|s| - n..]
  }

  // ----- what the chart shows ------------------------------------------------

  /** The keys that have a transaction. */
  function Keys(ts: seq<Transaction>, keyOf: Transaction -> string): set<string> {
    set i | 0 <= i < |ts| :: keyOf(ts[i])
  }

  /** The keys of a row list. */
  function Names(m: seq<MonthRow>): set<string> {
    set i | 0 <= i < |m| :: m[i].name
  }

  lemma {:induction false} DistinctNamesCount(m: seq<MonthRow>)
    requires DistinctNames(m)
    ensures |Names(m)| == |m|
  {
    if m != [] {
      var tail := m[1..];
      assert DistinctNames(tail) by {
        forall i, j | 0 <= i < j < |tail| ensures tail[i].name != tail[j].name {
          assert tail[i] == m[i + 1] && tail[j] == m[j + 1];
        }
      }
      DistinctNamesCount(tail);
      assert Names(m) == {m[0].name} + Names(tail) by {
        forall k ensures k in Names(m) <==> k == m[0].name || k in Names(tail) {
          if k in Names(m) && k != m[0].name {
            var i :| 0 <= i < |m| && m[i].name == k;
            assert tail[i - 1] == m[i];
          }
          if k in Names(tail) {
            var i :| 0 <= i < |tail| && tail[i].name == k;
            assert m[i + 1] == tail[i];
          }
        }
      }
      assert m[0].name !in Names(tail) by {
        forall i | 0 <= i < |tail| ensures tail[i].name != m[0].name {
          assert tail[i] == m[i + 1];
        }
      }
    }
  }

  lemma AscendingDistinct(s: seq<MonthRow>)
    requires Ascending(s)
    ensures DistinctNames(s)
  {
    forall i, j | 0 <= i < j < |s| ensures s[i].name != s[j].name {
      StrLessIrreflexive(s[i].name);
    }
  }

  /** The grouped rows sorted, before the last six are taken. */
  function SortedRows(ts: seq<Transaction>, keyOf: Transaction -> string): seq<MonthRow> {
    SortByMonth(GroupBy(ts, keyOf))
  }

  /** The sorted rows are strictly ascending, with the grouped rows' contents. */
  lemma SortedRowsOrder(ts: seq<Transaction>, keyOf: Transaction -> string)
    ensures Ascending(SortedRows(ts, keyOf))
    ensures multiset(SortedRows(ts, keyOf)) == multiset(GroupBy(ts, keyOf))
  {
    GroupBySpec(ts, keyOf);
    SortByMonthSpec(GroupBy(ts, keyOf));
  }

  /**
   * Any sort that puts the grouped rows in ascending key order produces
   * these rows: with distinct keys the result does not depend on the
   * algorithm the engine's `sort` uses.
   */
  lemma AnySortAgrees(ts: seq<Transaction>, keyOf: Transaction -> string, s: seq<MonthRow>)
    requires Ascending(s) && multiset(s) == multiset(GroupBy(ts, keyOf))
    ensures s == SortedRows(ts, keyOf)
  {
    SortedRowsOrder(ts, keyOf);
    AscendingUnique(s, SortedRows(ts, keyOf));
  }

  /** One sorted row per key that has a transaction. */
  lemma SortedRowsKeys(ts: seq<Transaction>, keyOf: Transaction -> string)
    ensures forall k :: HasName(SortedRows(ts, keyOf), k) <==> k in Keys(ts, keyOf)
    ensures |SortedRows(ts, keyOf)| == |Keys(ts, keyOf)|
  {
    var g := GroupBy(ts, keyOf);
    var full := SortedRows(ts, keyOf);
    GroupBySpec(ts, keyOf);
    SortedRowsOrder(ts, keyOf);
    forall k ensures HasName(full, k) <==> k in Keys(ts, keyOf) {
      SameMultisetSameNames(full, g, k);
      LookupFinds(g, k);
      if HasKey(ts, keyOf, k) {
        var i :| 0 <= i < |ts| && keyOf(ts[i]) == k;
      }
    }
    AscendingDistinct(full);
    DistinctNamesCount(full);
    assert Names(full) == Keys(ts, keyOf) by {
      forall k ensures k in Names(full) <==> HasName(full, k) {
        if HasName(full, k) {
          var i :| 0 <= i < |full| && full[i].name == k;
        }
      }
    }
  }

  /** Each sorted row holds its key's income sum and the sum of everything else. */
  lemma SortedRowsSums(ts: seq<Transaction>, keyOf: Transaction -> string)
    ensures var full := SortedRows(ts, keyOf);
      forall i :: 0 <= i < |full| ==>
        full[i].value == Bucket(KeyIncome(ts, keyOf, full[i].name), KeyExpense(ts, keyOf, full[i].name))
  {
    var g := GroupBy(ts, keyOf);
    var full := SortedRows(ts, keyOf);
    GroupBySpec(ts, keyOf);
    SortedRowsOrder(ts, keyOf);
    forall i | 0 <= i < |full|
      ensures full[i].value == Bucket(KeyIncome(ts, keyOf, full[i].name), KeyExpense(ts, keyOf, full[i].name))
    {
      assert full[i] in multiset(g);
      var p :| 0 <= p < |g| && g[p] == full[i];
      LookupFinds(g, full[i].name);
    }
  }

  /** The last `ChartMonths` sorted rows. */
  function LastRows(ts: seq<Transaction>, keyOf: Transaction -> string): seq<MonthRow> {
    TakeLast(SortedRows(ts, keyOf), ChartMonths)
  }

  /** The kept rows: ascending, up to six of them, the tail of the sorted rows. */
  lemma LastRowsShape(ts: seq<Transaction>, keyOf: Transaction -> string)
    ensures var full := SortedRows(ts, keyOf);
      var r := LastRows(ts, keyOf);
      && Ascending(r)
      && |r| == (if |Keys(ts, keyOf)| < ChartMonths then |Keys(ts, keyOf)| else ChartMonths)
      && r == full[|full| - |r|..]
  {
    SortedRowsOrder(ts, keyOf);
    SortedRowsKeys(ts, keyOf);
    var full := SortedRows(ts, keyOf);
    var r := LastRows(ts, keyOf);
    var d := |full| - |r|;
    assert forall i :: 0 <= i < |r| ==> r[i] == full[d + i];
  }

  /** Every kept row is a key with a transaction and holds that key's sums. */
  lemma LastRowsSums(ts: seq<Transaction>, keyOf: Transaction -> string)
    ensures var r := LastRows(ts, keyOf);
      forall i :: 0 <= i < |r| ==>
        && r[i].name in Keys(ts, keyOf)
        && r[i].value == Bucket(KeyIncome(ts, keyOf, r[i].name), KeyExpense(ts, keyOf, r[i].name))
  {
    LastRowsShape(ts, keyOf);
    SortedRowsSums(ts, keyOf);
    SortedRowsKeys(ts, keyOf);
    var full := SortedRows(ts, keyOf);
    var r := LastRows(ts, keyOf);
    var d := |full| - |r|;
    forall i | 0 <= i < |r| ensures r[i].name in Keys(ts, keyOf) {
      assert r[i] == full[d + i];
      assert HasName(full, full[d + i].name);
    }
  }

  /** A key that is not kept sorts before every kept one: the earliest months are dropped. */
  lemma LastRowsDropEarliest(ts: seq<Transaction>, keyOf: Transaction -> string)
    ensures var r := LastRows(ts, keyOf);
      forall k :: k in Keys(ts, keyOf) && !HasName(r, k) ==> forall j :: 0 <= j < |r| ==> StrLess(k, r[j].name)
  {
    LastRowsShape(ts, keyOf);
    SortedRowsKeys(ts, keyOf);
    SortedRowsOrder(ts, keyOf);
    var full := SortedRows(ts, keyOf);
    var r := LastRows(ts, keyOf);
    var d := |full| - |r|;
    forall k | k in Keys(ts, keyOf) && !HasName(r, k) ensures forall j :: 0 <= j < |r| ==> StrLess(k, r[j].name) {
      var p :| 0 <= p < |full| && full[p].name == k;
      SuffixHasName(full, d, p);
      forall j | 0 <= j < |r| ensures StrLess(k, r[j].name) {
        assert r[j] == full[d + j];
      }
    }
  }

  lemma SuffixHasName(s: seq<MonthRow>, d: int, p: int)
    requires 0 <= d <= |s|
    ensures d <= p < |s| ==> HasName(s[d..], s[p].name)
  {
    if d <= p < |s| {
      assert s[d..][p - d] == s[p];
    }
  }

  /** With at most six keys nothing is dropped, and the rows add up to the summary's totals. */
  lemma LastRowsMatchSummary(ts: seq<Transaction>, keyOf: Transaction -> string)
    requires |Keys(ts, keyOf)| <= ChartMonths
    ensures Sum(LastRows(ts, keyOf), RowIncome) == ComputeSummary(ts).totalIncome
    ensures Sum(LastRows(ts, keyOf), RowExpense) == ComputeSummary(ts).totalExpense
  {
    var g := GroupBy(ts, keyOf);
    var full := SortedRows(ts, keyOf);
    SortedRowsOrder(ts, keyOf);
    SortedRowsKeys(ts, keyOf);
    assert LastRows(ts, keyOf) == full;
    GroupTotals(ts, keyOf);
    SumPermutation(full, g, RowIncome);
    SumPermutation(full, g, RowExpense);
    SummaryIsSums(ts);
  }

  // ----- the monthly chart ---------------------------------------------------

  /** The months that have a transaction. */
  function MonthKeys(ts: seq<Transaction>): set<string> {
    Keys(ts, TransactionMonth)
  }

  /** `monthlyData` before formatting: the last six months in key order. */
  function MonthlyData(ts: seq<Transaction>): seq<MonthRow> {
    LastRows(ts, TransactionMonth)
  }

  /**
   * `monthlyData`: strictly ascending by key, as many rows as there are
   * months up to six, the tail of the full sorted list (so the earliest
   * months are the ones dropped), every row a month with a transaction and
   * that month's income and other sums.
   */
  lemma MonthlyDataSpec(ts: seq<Transaction>)
    ensures var full := SortedRows(ts, TransactionMonth);
      var r := MonthlyData(ts);
      && Ascending(r)
      && |r| == (if |MonthKeys(ts)| < ChartMonths then |MonthKeys(ts)| else ChartMonths)
      && r == full[|full| - |r|..]
      && (forall i :: 0 <= i < |r| ==>
            && r[i].name in MonthKeys(ts)
            && r[i].value == Bucket(KeyIncome(ts, TransactionMonth, r[i].name), KeyExpense(ts, TransactionMonth, r[i].name)))
      && (forall k :: k in MonthKeys(ts) && !HasName(r, k) ==> forall j :: 0 <= j < |r| ==> StrLess(k, r[j].name))
  {
    LastRowsShape(ts, TransactionMonth);
    LastRowsSums(ts, TransactionMonth);
    LastRowsDropEarliest(ts, TransactionMonth);
  }

  /** With at most six months nothing is dropped, and the bars add up to the summary's totals. */
  lemma MonthlyMatchesSummary(ts: seq<Transaction>)
    requires |MonthKeys(ts)| <= ChartMonths
    ensures Sum(MonthlyData(ts), RowIncome) == ComputeSummary(ts).totalIncome
    ensures Sum(MonthlyData(ts), RowExpense) == ComputeSummary(ts).totalExpense
  {
    LastRowsMatchSummary(ts, TransactionMonth);
  }

  /**
   * For transactions on real days of four-digit years, the bars run in
   * calendar order: every transaction of an earlier bar falls in an earlier
   * month than every transaction of a later bar.
   */
  lemma MonthlyChronological(ts: seq<Transaction>)
    requires forall i :: 0 <= i < |ts| ==> IsValidDate(ts[i].date) && 1000 <= ts[i].date.year <= 9999
    ensures var r := MonthlyData(ts);
      forall i, j, p, q :: 0 <= i < j < |r| && 0 <= p < |ts| && 0 <= q < |ts|
        && TransactionMonth(ts[p]) == r[i].name && TransactionMonth(ts[q]) == r[j].name
        ==> MonthBefore(ts[p].date, ts[q].date)
  {
    var r := MonthlyData(ts);
    LastRowsShape(ts, TransactionMonth);
    forall i, j, p, q | 0 <= i < j < |r| && 0 <= p < |ts| && 0 <= q < |ts|
        && TransactionMonth(ts[p]) == r[i].name && TransactionMonth(ts[q]) == r[j].name
      ensures MonthBefore(ts[p].date, ts[q].date)
    {
      MonthKeyOrder(ts[p].date, ts[q].date);
    }
  }
}

=== FILE: plain_object.dfy ===
/**
 * A plain JavaScript object used as a dictionary, seen through its own
 * properties: an association list in insertion order, one entry per key.
 * Both chart aggregations group their records in such an object.
 */
module PlainObject {
  import opened Wrappers

  /** One own property of the grouping object: a key and its value. */
  datatype Entry<V> = Entry(name: string, value: V)

  /** The value stored under `name`, if any. */
  function Lookup<V>(m: seq<Entry<V>>, name: string): Option<V> {
    if m == [] then None
    else if m[0].name == name then Some(m[0].value)
    else Lookup(m[1..], name)
  }

  /** `obj[name] = v`: overwrite in place, or append a new key at the end. */
  function Put<V>(m: seq<Entry<V>>, name: string, v: V): seq<Entry<V>> {
    if m == [] then [Entry(name, v)]
    else if m[0].name == name then [Entry(name, v)] + m[1..]
    else [m[0]] + Put(m[1..], name, v)
  }

  predicate DistinctNames<V>(m: seq<Entry<V>>) {
    forall i, j :: 0 <= i < j < |m| ==> m[i].name != m[j].name
  }

  predicate HasName<V>(m: seq<Entry<V>>, name: string) {
    exists i :: 0 <= i < |m| && m[i].name == name
  }

  /** A key is found exactly when some entry carries it, and then it is the first such entry's value. */
  lemma {:induction false} LookupFinds<V>(m: seq<Entry<V>>, name: string)
    ensures Lookup(m, name).Some? <==> HasName(m, name)
    ensures DistinctNames(m) ==> forall i :: 0 <= i < |m| && m[i].name == name ==> Lookup(m, name) == Some(m[i].value)
  {
    if m != [] {
      LookupFinds(m[1..], name);
      if HasName(m, name) && m[0].name != name {
        var i :| 0 <= i < |m| && m[i].name == name;
        assert m[1..][i - 1].name == name;
      }
      if HasName(m[1..], name) {
        var i :| 0 <= i < |m[1..]| && m[1..][i].name == name;
        assert m[i + 1].name == name;
      }
      if DistinctNames(m) {
        assert DistinctNames(m[1..]) by {
          forall i, j | 0 <= i < j < |m[1..]| ensures m[1..][i].name != m[1..][j].name {
            assert m[1..][i] == m[i + 1] && m[1..][j] == m[j + 1];
          }
        }
        forall i | 0 <= i < |m| && m[i].name == name ensures Lookup(m, name) == Some(m[i].value) {
          if i > 0 {
            assert m[0].name != m[i].name;
            assert m[1..][i - 1] == m[i];
          }
        }
      }
    }
  }

  /**
   * Storing a value makes it the value of its key, leaves every other key
   * alone, and keeps the keys distinct.
   */
  lemma {:induction false} PutSpec<V>(m: seq<Entry<V>>, name: string, v: V)
    ensures Lookup(Put(m, name, v), name) == Some(v)
    ensures forall k :: k != name ==> Lookup(Put(m, name, v), k) == Lookup(m, k)
    ensures forall k :: HasName(Put(m, name, v), k) <==> k == name || HasName(m, k)
    ensures DistinctNames(m) ==> DistinctNames(Put(m, name, v))
  {
    var r := Put(m, name, v);
    if m != [] {
      PutSpec(m[1..], name, v);
      forall k ensures HasName(r, k) <==> k == name || HasName(m, k) {
        LookupFinds(r, k);
        LookupFinds(m, k);
        LookupFinds(m[1..], k);
        LookupFinds(Put(m[1..], name, v), k);
      }
      if DistinctNames(m) && m[0].name != name {
        assert DistinctNames(m[1..]) by {
          forall i, j | 0 <= i < j < |m[1..]| ensures m[1..][i].name != m[1..][j].name {
            assert m[1..][i] == m[i + 1] && m[1..][j] == m[j + 1];
          }
        }
        var rest := Put(m[1..], name, v);
        assert !HasName(m[1..], m[0].name) by {
          forall i | 0 <= i < |m[1..]| ensures m[1..][i].name != m[0].name {
            assert m[1..][i] == m[i + 1];
          }
        }
        assert !HasName(rest, m[0].name);
        forall i, j | 0 <= i < j < |r| ensures r[i].name != r[j].name {
          if i == 0 {
            assert r[j] == rest[j - 1];
          } else {
            assert r[i] == rest[i - 1] && r[j] == rest[j - 1];
          }
        }
      }
      if DistinctNames(m) && m[0].name == name {
        forall i, j | 0 <= i < j < |r| ensures r[i].name != r[j].name {
          if i == 0 {
            assert r[j] == m[j];
            assert m[0].name != m[j].name;
          } else {
            assert r[i] == m[i] && r[j] == m[j];
          }
        }
      }
    } else {
      forall k ensures HasName(r, k) <==> k == name || HasName(m, k) {
        if k == name {
          assert r[0].name == k;
        }
      }
    }
  }
}

=== FILE: summary.dfy ===
/**
 * The income/expense summary of `GET /api/transactions/summary`: a `reduce`
 * over the caller's transactions into two running totals, then the balance.
 */
module Summaries {
  import opened TransactionModel
  import opened Sums

  datatype Summary = Summary(totalIncome: int, totalExpense: int, balance: int)

  /** The accumulator of the `reduce`. */
  datatype Totals = Totals(totalIncome: int, totalExpense: int)

  /** One step of the reducer: income goes to income, anything else to expense. */
  function Accumulate(acc: Totals, t: Transaction): Totals {
    if t.kind == Income then acc.(totalIncome := acc.totalIncome + t.amount)
    else acc.(totalExpense := acc.totalExpense + t.amount)
  }

  /** `ts.reduce(Accumulate, {totalIncome: 0, totalExpense: 0})`. */
  function Reduce(ts: seq<Transaction>): Totals {
    if ts == [] then Totals(0, 0) else Accumulate(Reduce(ts[..|ts| - 1]), ts[|ts| - 1])
  }

  function ComputeSummary(ts: seq<Transaction>): Summary {
    var acc := Reduce(ts);
    Summary(acc.totalIncome, acc.totalExpense, acc.totalIncome - acc.totalExpense)
  }

  /** The amount a transaction adds to the income total. */
  function IncomeAmount(t: Transaction): int {
    if t.kind == Income then t.amount else 0
  }

  /** The amount a transaction adds to the expense total: every non-income record counts. */
  function OtherAmount(t: Transaction): int {
    if t.kind == Income then 0 else t.amount
  }

  /**
   * The summary is the income sum, the sum of everything else, and their
   * difference; no transaction gives all zeros.
   */
  lemma {:induction false} SummaryIsSums(ts: seq<Transaction>)
    ensures ComputeSummary(ts).totalIncome == Sum(ts, IncomeAmount)
    ensures ComputeSummary(ts).totalExpense == Sum(ts, OtherAmount)
    ensures ComputeSummary(ts).balance == Sum(ts, IncomeAmount) - Sum(ts, OtherAmount)
    ensures ts == [] ==> ComputeSummary(ts) == Summary(0, 0, 0)
  {
    if ts != [] {
      SummaryIsSums(ts[..|ts| - 1]);
    }
  }

  /** The order in which the store returns the records does not change the summary. */
  lemma SummaryOrderIndependent(a: seq<Transaction>, b: seq<Transaction>)
    requires multiset(a) == multiset(b)
    ensures ComputeSummary(a) == ComputeSummary(b)
  {
    SummaryIsSums(a);
    SummaryIsSums(b);
    SumPermutation(a, b, IncomeAmount);
    SumPermutation(a, b, OtherAmount);
  }
}

=== FILE: sums.dfy ===
/**
 * Sums of a weight over a sequence, accumulated in sequence order the way a
 * JavaScript `reduce` or `forEach` with `+=` accumulates them, and the facts
 * that make such sums independent of the order of the sequence.
 */
module Sums {

  /** `f(s[0]) + f(s[1]) + ... + f(s[|s| - 1])`, added left to right. */
  function Sum<T>(s: seq<T>, f: T -> int): int {
    if s == [] then 0 else Sum(s[..|s| - 1], f) + f(s[|s| - 1])
  }

  /** No element occurs twice. */
  predicate Distinct<T(==)>(s: seq<T>) {
    forall i, j :: 0 <= i < j < |s| ==> s[i] != s[j]
  }

  lemma {:induction false} SumConcat<T>(a: seq<T>, b: seq<T>, f: T -> int)
    ensures Sum(a + b, f) == Sum(a, f) + Sum(b, f)
    decreases |b|
  {
    if b == [] {
      assert a + b == a;
    } else {
      assert (a + b)[..|a + b| - 1] == a + b[..|b| - 1];
      SumConcat(a, b[..|b| - 1], f);
    }
  }

  lemma SumSingleton<T>(x: T, f: T -> int)
    ensures Sum([x], f) == f(x)
  {
    assert [x][..0] == [];
  }

  lemma SumCons<T>(x: T, s: seq<T>, f: T -> int)
    ensures Sum([x] + s, f) == f(x) + Sum(s, f)
  {
    SumConcat([x], s, f);
    SumSingleton(x, f);
  }

  /** Taking the element at `i` out of the sum. */
  lemma SumRemove<T>(s: seq<T>, i: int, f: T -> int)
    requires 0 <= i < |s|
    ensures Sum(s, f) == Sum(s[..i] + s[i + 1..], f) + f(s[i])
  {
    var l, x, r := s[..i], s[i], s[i + 1..];
    assert s == l + ([x] + r);
    SumConcat(l, [x] + r, f);
    SumCons(x, r, f);
    SumConcat(l, r, f);
  }

  /** A sum does not depend on the order of its terms. */
  lemma {:induction false} SumPermutation<T>(a: seq<T>, b: seq<T>, f: T -> int)
    requires multiset(a) == multiset(b)
    ensures Sum(a, f) == Sum(b, f)
    decreases |a|
  {
    if a != [] {
      var n := |a| - 1;
      var x := a[n];
      assert x in multiset(b);
      var i :| 0 <= i < |b| && b[i] == x;
      var a', b' := a[..n], b[..i] + b[i + 1..];
      assert a == a' + [x];
      assert multiset(a') == multiset(a) - multiset{x};
      MultisetRemove(b, i);
      assert multiset(b') == multiset(b) - multiset{x};
      SumPermutation(a', b', f);
      SumRemove(b, i, f);
    } else {
      assert |multiset(b)| == 0;
    }
  }

  lemma NonEmptyHasElement<T>(s: seq<T>)
    ensures s != [] ==> s[0] in s
  {
  }

  /** Taking one element out of a duplicate-free sequence removes exactly that element. */
  lemma RemoveFromDistinct<T>(s: seq<T>, i: int)
    requires Distinct(s) && 0 <= i < |s|
    ensures Distinct(s[..i] + s[i + 1..])
    ensures forall y :: y in s[..i] + s[i + 1..] <==> y in s && y != s[i]
  {
    var s' := s[..i] + s[i + 1..];
    assert forall k :: 0 <= k < |s'| ==> s'[k] == s[if k < i then k else k + 1];
    forall y | y in s && y != s[i] ensures y in s' {
      var j :| 0 <= j < |s| && s[j] == y;
      assert s'[if j < i then j else j - 1] == y;
    }
  }

  /** Taking the element at `i` out of a sequence takes one copy of it out of the multiset. */
  lemma MultisetRemove<T>(s: seq<T>, i: int)
    requires 0 <= i < |s|
    ensures multiset(s) == multiset(s[..i] + s[i + 1..]) + multiset{s[i]}
  {
    assert s == s[..i] + [s[i]] + s[i + 1..];
  }

  lemma MultisetTail<T>(s: seq<T>)
    requires s != []
    ensures multiset(s[1..]) == multiset(s) - multiset{s[0]}
  {
    assert s == [s[0]] + s[1..];
  }

  /**
   * Two duplicate-free sequences with the same elements are permutations of
   * each other.
   */
  lemma {:induction false} DistinctSameElements<T>(a: seq<T>, b: seq<T>)
    requires Distinct(a) && Distinct(b)
    requires forall x :: x in a <==> x in b
    ensures multiset(a) == multiset(b)
    decreases |a|
  {
    if a == [] {
      NonEmptyHasElement(b);
    } else {
      var x := a[0];
      assert x in b;
      var i :| 0 <= i < |b| && b[i] == x;
      var a', b' := a[..0] + a[1..], b[..i] + b[i + 1..];
      RemoveFromDistinct(a, 0);
      RemoveFromDistinct(b, i);
      forall y ensures y in a' <==> y in b' {
        assert y in a <==> y in b;
      }
      DistinctSameElements(a', b');
      MultisetRemove(a, 0);
      MultisetRemove(b, i);
    }
  }
}

=== FILE: text.dfy ===
/**
 * Whitespace trimming as performed by JavaScript's `String.prototype.trim`,
 * which is what both express-validator's `trim()` sanitizer and mongoose's
 * `trim: true` schema option apply to `category` and `description`.
 */
module Text {

  /** The characters JavaScript counts as white space or line terminators. */
  predicate IsWhitespace(c: char) {
    || c == '\t' || c == '\n' || c == '\U{000B}' || c == '\U{000C}' || c == '\r' || c == ' '
    || c == '\U{00A0}' || c == '\U{1680}' || ('\U{2000}' <= c <= '\U{200A}')
    || c == '\U{2028}' || c == '\U{2029}' || c == '\U{202F}' || c == '\U{205F}'
    || c == '\U{3000}' || c == '\U{FEFF}'
  }

  predicate AllWhitespace(s: string) {
    forall k :: 0 <= k < |s| ==> IsWhitespace(s[k])
  }

  /** No white space at either end. */
  predicate IsTrimmed(s: string) {
    s == [] || (!IsWhitespace(s[0]) && !IsWhitespace(s[|s| - 1]))
  }

  function TrimStart(s: string): string {
    if s != [] && IsWhitespace(s[0]) then TrimStart(s[1..]) else s
  }

  function TrimEnd(s: string): string {
    if s != [] && IsWhitespace(s[|s| - 1]) then TrimEnd(s[..|s| - 1]) else s
  }

  /** `s.trim()`: white space removed from both ends. */
  function Trim(s: string): string {
    TrimEnd(TrimStart(s))
  }

  /** `TrimStart(s)` is a suffix of `s` after a run of white space, and starts with none. */
  lemma {:induction false} TrimStartSpec(s: string)
    ensures var r := TrimStart(s);
      && (r == [] || !IsWhitespace(r[0]))
      && |r| <= |s| && r == s[|s| - |r|..]
      && AllWhitespace(s[..|s| - |r|])
  {
    if s != [] && IsWhitespace(s[0]) {
      TrimStartSpec(s[1..]);
      var r := TrimStart(s);
      assert s[..|s| - |r|] == [s[0]] + s[1..][..|s| - 1 - |r|];
    }
  }

  /** `TrimEnd(s)` is a prefix of `s` before a run of white space, and ends with none. */
  lemma {:induction false} TrimEndSpec(s: string)
    ensures var r := TrimEnd(s);
      && (r == [] || !IsWhitespace(r[|r| - 1]))
      && |r| <= |s| && r == s[..|r|]
      && AllWhitespace(s[|r|..])
  {
    if s != [] && IsWhitespace(s[|s| - 1]) {
      var p := s[..|s| - 1];
      TrimEndSpec(p);
      var r := TrimEnd(s);
      assert s[|r|..] == p[|r|..] + [s[|s| - 1]];
    }
  }

  /** Trimming leaves no white space at either end. */
  lemma TrimIsTrimmed(s: string)
    ensures IsTrimmed(Trim(s))
  {
    var a := TrimStart(s);
    TrimStartSpec(s);
    TrimEndSpec(a);
    var r := TrimEnd(a);
    if r != [] {
      assert r[0] == a[0];
    }
  }

  /**
   * `Trim(s)` is the infix of `s` left after removing white space at the
   * front and at the back, and nothing else.
   */
  lemma TrimIsInfix(s: string)
    ensures exists i, j :: 0 <= i <= j <= |s| && Trim(s) == s[i..j]
                           && AllWhitespace(s[..i]) && AllWhitespace(s[j..])
  {
    var a := TrimStart(s);
    TrimStartSpec(s);
    TrimEndSpec(a);
    var r := TrimEnd(a);
    var i := |s| - |a|;
    assert r == s[i..i + |r|];
    assert s[i + |r|..] == a[|r|..];
  }

  /** A string with no white space at its ends is left alone by trimming. */
  lemma TrimOfTrimmed(s: string)
    requires IsTrimmed(s)
    ensures Trim(s) == s
  {
    assert TrimStart(s) == s;
    assert TrimEnd(s) == s;
  }

  /** Trimming twice is the same as trimming once. */
  lemma TrimIdempotent(s: string)
    ensures Trim(Trim(s)) == Trim(s)
  {
    TrimIsTrimmed(s);
    TrimOfTrimmed(Trim(s));
  }

  /** Trimming leaves nothing exactly when the string is all white space. */
  lemma TrimEmptyIffAllWhitespace(s: string)
    ensures Trim(s) == [] <==> AllWhitespace(s)
  {
    if Trim(s) == [] {
      TrimIsInfix(s);
      var i, j :| 0 <= i <= j <= |s| && Trim(s) == s[i..j]
                  && AllWhitespace(s[..i]) && AllWhitespace(s[j..]);
      forall k | 0 <= k < |s|
        ensures IsWhitespace(s[k])
      {
        if k < i {
          assert s[..i][k] == s[k];
        } else {
          assert s[j..][k - j] == s[k];
        }
      }
    }
    if AllWhitespace(s) {
      AllWhitespaceTrimsToEmpty(s);
    }
  }

  lemma {:induction false} AllWhitespaceTrimsToEmpty(s: string)
    requires AllWhitespace(s)
    ensures TrimStart(s) == [] && Trim(s) == []
  {
    if s != [] {
      AllWhitespaceTrimsToEmpty(s[1..]);
    }
  }
}

=== FILE: transaction_model.dfy ===
/**
 * The mongoose `Transaction` schema: the stored record, the constraints the
 * schema enforces on save, and document construction with its defaults and
 * trimming setters.
 */
module TransactionModel {
  import opened Wrappers
  import opened Text
  import opened Dates

  /** Document ids and user ids are opaque; only equality matters. */
  type Id = string
  type UserId = string

  /**
   * A stored transaction. `kind` is the schema's `type` path; it stays a
   * string because every consumer compares it with `"income"` or `"expense"`.
   * `amount` is in integer cents.
   */
  datatype Transaction = Transaction(
    id: Id,
    user: UserId,
    kind: string,
    amount: int,
    category: string,
    description: string,
    date: Date,
    createdAt: Date)

  /** The paths of a transaction, used to report which ones failed validation. */
  datatype Field = UserPath | TypePath | AmountPath | CategoryPath | DatePath | CreatedAtPath

  const Income := "income"
  const Expense := "expense"

  /** The schema's `enum` for `type`. */
  predicate IsKind(s: string) {
    s == Income || s == Expense
  }

  /**
   * What `save()` checks: the schema's validators (`enum`, `min`, `required`
   * and the date casts). The `trim` setters are not among them; they run
   * only when a path is assigned.
   */
  predicate SaveValid(t: Transaction) {
    && IsKind(t.kind)
    && t.amount >= 0
    && t.category != []
    && IsValidDate(t.date)
    && IsValidDate(t.createdAt)
  }

  /**
   * Everything the schema guarantees about a document written through it:
   * the validators passed and the string paths went through their setters.
   */
  predicate SchemaValid(t: Transaction) {
    && SaveValid(t)
    && IsTrimmed(t.category)
    && IsTrimmed(t.description)
  }

  /**
   * The values handed to `Transaction.create`; `None` is a path left
   * undefined.
   */
  datatype Draft = Draft(
    user: Option<UserId>,
    kind: Option<string>,
    amount: Option<int>,
    category: Option<string>,
    description: Option<string>,
    date: Option<Date>,
    createdAt: Option<Date>)

  datatype SaveResult = Accepted(doc: Transaction) | Rejected(errors: seq<Field>)

  /** `[f]` when the validator of path `f` fails, nothing otherwise. */
  function Flag(fails: bool, f: Field): seq<Field> {
    if fails then [f] else []
  }

  /**
   * The failing paths of a draft after defaults and setters, in schema order.
   * `required` on a string path rejects the empty string, so a category that
   * trims to nothing fails.
   */
  function PathErrors(d: Draft, now: Date): seq<Field> {
    Flag(d.user.None?, UserPath)
    + Flag(d.kind.None? || !IsKind(d.kind.value), TypePath)
    + Flag(d.amount.None? || d.amount.value < 0, AmountPath)
    + Flag(d.category.None? || Trim(d.category.value) == "", CategoryPath)
    + Flag(!IsValidDate(d.date.GetOr(now)), DatePath)
    + Flag(!IsValidDate(d.createdAt.GetOr(now)), CreatedAtPath)
  }

  /** What the failing-path list says about the draft, path by path. */
  lemma PathErrorsOfDraft(d: Draft, now: Date)
    ensures var e := PathErrors(d, now);
      && (e == [] <==>
          && d.user.Some?
          && d.kind.Some? && IsKind(d.kind.value)
          && d.amount.Some? && d.amount.value >= 0
          && d.category.Some? && !AllWhitespace(d.category.value)
          && IsValidDate(d.date.GetOr(now))
          && IsValidDate(d.createdAt.GetOr(now)))
      && (UserPath in e <==> d.user.None?)
      && (TypePath in e <==> d.kind.None? || !IsKind(d.kind.value))
      && (AmountPath in e <==> d.amount.None? || d.amount.value < 0)
      && (CategoryPath in e <==> d.category.None? || AllWhitespace(d.category.value))
      && (DatePath in e <==> !IsValidDate(d.date.GetOr(now)))
      && (CreatedAtPath in e <==> !IsValidDate(d.createdAt.GetOr(now)))
  {
    TrimEmptyIffAllWhitespace(d.category.GetOr(""));
  }

  /**
   * Builds a document from a draft as mongoose does on create: defaults fill
   * undefined paths (`description` becomes `""`, `date` and `createdAt`
   * become the current time `now`), the `trim` setters run, and then the
   * validators of every path run, each failing path reported in schema order.
   */
  function Construct(id: Id, d: Draft, now: Date): (r: SaveResult)
    ensures r.Accepted? <==>
      && d.user.Some?
      && d.kind.Some? && IsKind(d.kind.value)
      && d.amount.Some? && d.amount.value >= 0
      && d.category.Some? && !AllWhitespace(d.category.value)
      && IsValidDate(d.date.GetOr(now))
      && IsValidDate(d.createdAt.GetOr(now))
    ensures r.Accepted? ==>
      && SchemaValid(r.doc)
      && r.doc.id == id
      && r.doc.user == d.user.value
      && r.doc.kind == d.kind.value
      && r.doc.amount == d.amount.value
      && r.doc.category == Trim(d.category.value)
      && r.doc.description == (if d.description.None? then "" else Trim(d.description.value))
      && r.doc.date == (if d.date.None? then now else d.date.value)
      && r.doc.createdAt == (if d.createdAt.None? then now else d.createdAt.value)
    ensures r.Rejected? ==> r.errors != []
    ensures r.Rejected? ==> (UserPath in r.errors <==> d.user.None?)
    ensures r.Rejected? ==> (TypePath in r.errors <==> d.kind.None? || !IsKind(d.kind.value))
    ensures r.Rejected? ==> (AmountPath in r.errors <==> d.amount.None? || d.amount.value < 0)
    ensures r.Rejected? ==> (CategoryPath in r.errors <==> d.category.None? || AllWhitespace(d.category.value))
    ensures r.Rejected? ==> (DatePath in r.errors <==> !IsValidDate(d.date.GetOr(now)))
    ensures r.Rejected? ==> (CreatedAtPath in r.errors <==> !IsValidDate(d.createdAt.GetOr(now)))
  {
    var errors := PathErrors(d, now);
    PathErrorsOfDraft(d, now);
    TrimIsTrimmed(d.category.GetOr(""));
    TrimIsTrimmed(d.description.GetOr(""));
    if errors == [] then
      // the `trim` setter also runs on the default, which is already trimmed
      var category := Trim(d.category.value);
      var description := if d.description.None? then "" else Trim(d.description.value);
      Accepted(Transaction(id, d.user.value, d.kind.value, d.amount.value,
                           category, description, d.date.GetOr(now), d.createdAt.GetOr(now)))
    else
      Rejected(errors)
  }
}

=== FILE: transaction_routes.dfy ===
/**
 * The handlers of `/api/transactions`: list, create, update, delete and
 * summary, over a store that maps document ids to records. Create, update
 * and delete return the store after the call together with the response, and
 * a failed call hands back the store it was given; list and summary change
 * nothing and return only the listing or the summary.
 */
module TransactionRoutes {
  import opened Wrappers
  import opened Text
  import opened Dates
  import opened TransactionModel
  import opened Sums
  import opened Summaries

  type Store = map<Id, Transaction>

  /** Every record sits under its own id. */
  predicate IdsMatchKeys(store: Store) {
    forall id :: id in store ==> store[id].id == id
  }

  /**
   * Every record sits under its own id and passes the schema's validators.
   * Its strings need not be trimmed: a record written before the `trim`
   * options existed, or outside mongoose, is loaded as it was stored.
   */
  predicate Validated(store: Store) {
    forall id :: id in store ==> store[id].id == id && SaveValid(store[id])
  }

  /** Every record sits under its own id and satisfies the schema. */
  predicate WellFormed(store: Store) {
    forall id :: id in store ==> store[id].id == id && SchemaValid(store[id])
  }

  /** What the routes' validators guarantee on top of the schema: amounts of at least 0.01. */
  predicate RouteValid(t: Transaction) {
    SchemaValid(t) && t.amount >= 1
  }

  /**
   * The request body fields the handlers read; `None` is a field the client
   * left out. `user` is here only to show that it is ignored.
   */
  datatype Body = Body(
    kind: Option<string>,
    amount: Option<int>,
    category: Option<string>,
    description: Option<string>,
    date: Option<Date>,
    user: Option<UserId>)

  /** The error responses: 400 with the failing fields, 404, 403 and 500. */
  datatype Failure =
    | BadRequest(errors: seq<Field>)
    | NotFound
    | Forbidden
    | ServerError

  datatype Result<T> = Ok(value: T) | Err(failure: Failure)

  datatype Outcome<T> = Outcome(store: Store, result: Result<T>)

  // ----- validators --------------------------------------------------------

  /*
   * `isIn(["income", "expense"])` is the schema's `IsKind`, and `isISO8601()`
   * is modelled by the calendar check `IsValidDate`; the two amount and
   * category rules below are the routes' own.
   */

  /** `isFloat({ min: 0.01 })` on an amount in cents. */
  predicate AmountAccepted(cents: int) {
    cents >= 1
  }

  /** `trim().notEmpty()`. */
  predicate CategoryAccepted(s: string) {
    Trim(s) != ""
  }

  lemma CategoryAcceptedUnlessBlank(s: string)
    ensures CategoryAccepted(s) <==> !AllWhitespace(s)
  {
    TrimEmptyIffAllWhitespace(s);
  }

  /** The validator chains of `POST /`, in declaration order; every field is required. */
  function ValidateCreate(b: Body): (errs: seq<Field>)
    ensures TypePath in errs <==> !(b.kind.Some? && IsKind(b.kind.value))
    ensures AmountPath in errs <==> !(b.amount.Some? && b.amount.value >= 1)
    ensures CategoryPath in errs <==> !(b.category.Some? && !AllWhitespace(b.category.value))
    ensures DatePath in errs <==> !(b.date.Some? && IsValidDate(b.date.value))
    ensures UserPath !in errs && CreatedAtPath !in errs
  {
    CategoryAcceptedUnlessBlank(b.category.GetOr(""));
    Flag(!(b.kind.Some? && IsKind(b.kind.value)), TypePath)
    + Flag(!(b.amount.Some? && AmountAccepted(b.amount.value)), AmountPath)
    + Flag(!(b.category.Some? && CategoryAccepted(b.category.value)), CategoryPath)
    + Flag(!(b.date.Some? && IsValidDate(b.date.value)), DatePath)
  }

  /**
   * The validator chains of `PUT /:id`: the same rules, each `optional()`,
   * so an absent field passes.
   */
  function ValidateUpdate(b: Body): (errs: seq<Field>)
    ensures TypePath in errs <==> b.kind.Some? && !IsKind(b.kind.value)
    ensures AmountPath in errs <==> b.amount.Some? && b.amount.value < 1
    ensures CategoryPath in errs <==> b.category.Some? && AllWhitespace(b.category.value)
    ensures DatePath in errs <==> b.date.Some? && !IsValidDate(b.date.value)
    ensures UserPath !in errs && CreatedAtPath !in errs
  {
    CategoryAcceptedUnlessBlank(b.category.GetOr(""));
    Flag(b.kind.Some? && !IsKind(b.kind.value), TypePath)
    + Flag(b.amount.Some? && !AmountAccepted(b.amount.value), AmountPath)
    + Flag(b.category.Some? && !CategoryAccepted(b.category.value), CategoryPath)
    + Flag(b.date.Some? && !IsValidDate(b.date.value), DatePath)
  }

  /** The `trim()` sanitizer writes the trimmed category back into the body. */
  function Sanitize(b: Body): Body {
    b.(category := if b.category.Some? then Some(Trim(b.category.value)) else None)
  }

  /** All four required fields are present and acceptable. */
  predicate CreateInputValid(b: Body) {
    && b.kind.Some? && IsKind(b.kind.value)
    && b.amount.Some? && b.amount.value >= 1
    && b.category.Some? && !AllWhitespace(b.category.value)
    && b.date.Some? && IsValidDate(b.date.value)
  }

  /** Every field that is present is acceptable. */
  predicate UpdateInputValid(b: Body) {
    && (b.kind.Some? ==> IsKind(b.kind.value))
    && (b.amount.Some? ==> b.amount.value >= 1)
    && (b.category.Some? ==> !AllWhitespace(b.category.value))
    && (b.date.Some? ==> IsValidDate(b.date.value))
  }

  // ----- create ------------------------------------------------------------

  /** `description || ""`: a missing or empty description becomes `""`. */
  function DescriptionOrEmpty(d: Option<string>): string {
    if d.None? || d.value == "" then "" else d.value
  }

  /** The document the create handler passes to `Transaction.create`. */
  function CreateDraft(caller: UserId, b: Body): Draft {
    var sb := Sanitize(b);
    Draft(Some(caller), sb.kind, sb.amount, sb.category, Some(DescriptionOrEmpty(sb.description)), sb.date, None)
  }

  /**
   * `POST /`: validation (400), then `Transaction.create` with the caller as
   * owner. `newId` is the id the database generates and `now` the clock; an
   * id already in use is a duplicate-key error (500), as is a document the
   * schema refuses.
   */
  function Create(store: Store, caller: UserId, b: Body, newId: Id, now: Date): (o: Outcome<Transaction>)
    ensures o.result.Err? ==> o.store == store
  {
    var errs := ValidateCreate(b);
    if errs != [] then Outcome(store, Err(BadRequest(errs)))
    else
      match Construct(newId, CreateDraft(caller, b), now)
      case Rejected(_) => Outcome(store, Err(ServerError))
      case Accepted(t) =>
        if newId in store then Outcome(store, Err(ServerError))
        else Outcome(store[newId := t], Ok(t))
  }

  /** Create answers 400, listing the failing fields, exactly when a required field is missing or unacceptable. */
  lemma CreateValidation(store: Store, caller: UserId, b: Body, newId: Id, now: Date)
    ensures var o := Create(store, caller, b, newId, now);
      && (o.result.Err? && o.result.failure.BadRequest? <==> !CreateInputValid(b))
      && (o.result.Err? && o.result.failure.BadRequest? ==>
            o.result.failure.errors != [] && o.result.failure.errors == ValidateCreate(b))
  {
    var errs := ValidateCreate(b);
    assert errs != [] ==> errs[0] in errs;
  }

  /** A valid body passes the schema: the draft the handler builds is accepted with these values. */
  lemma CreateDraftAccepted(caller: UserId, b: Body, newId: Id, now: Date)
    requires CreateInputValid(b) && IsValidDate(now)
    ensures var r := Construct(newId, CreateDraft(caller, b), now);
      && r.Accepted?
      && r.doc.id == newId
      && r.doc.user == caller
      && r.doc.kind == b.kind.value
      && r.doc.amount == b.amount.value
      && r.doc.category == Trim(b.category.value)
      && r.doc.description == (if b.description.None? then "" else Trim(b.description.value))
      && r.doc.date == b.date.value
      && r.doc.createdAt == now
      && RouteValid(r.doc)
  {
    var v := b.category.value;
    TrimIdempotent(v);
    TrimEmptyIffAllWhitespace(v);
    TrimEmptyIffAllWhitespace(Trim(v));
    assert Trim("") == "";
  }

  /**
   * A valid create stores one new record under the new id, owned by the
   * caller whatever the body says, with the supplied fields trimmed, an empty
   * description when none was given, and `createdAt` set to now.
   */
  lemma CreateSucceeds(store: Store, caller: UserId, b: Body, newId: Id, now: Date)
    ensures var o := Create(store, caller, b, newId, now);
      && (o.result.Ok? <==> CreateInputValid(b) && IsValidDate(now) && newId !in store)
      && (o.result.Ok? ==>
            var t := o.result.value;
            && o.store == store[newId := t]
            && t.id == newId
            && t.user == caller
            && t.kind == b.kind.value
            && t.amount == b.amount.value
            && t.category == Trim(b.category.value)
            && t.description == (if b.description.None? then "" else Trim(b.description.value))
            && t.date == b.date.value
            && t.createdAt == now
            && RouteValid(t))
  {
    var errs := ValidateCreate(b);
    assert errs != [] ==> errs[0] in errs;
    if CreateInputValid(b) && IsValidDate(now) {
      CreateDraftAccepted(caller, b, newId, now);
    }
    if CreateInputValid(b) && !IsValidDate(now) {
      assert Construct(newId, CreateDraft(caller, b), now).Rejected?;
    }
  }

  /** The body's `user` field has no effect on create. */
  lemma CreateIgnoresBodyUser(store: Store, caller: UserId, b: Body, u: Option<UserId>, newId: Id, now: Date)
    ensures Create(store, caller, b.(user := u), newId, now) == Create(store, caller, b, newId, now)
  {
  }

  lemma CreatePreservesWellFormed(store: Store, caller: UserId, b: Body, newId: Id, now: Date)
    ensures WellFormed(store) ==> WellFormed(Create(store, caller, b, newId, now).store)
    ensures Validated(store) ==> Validated(Create(store, caller, b, newId, now).store)
  {
    CreateSucceeds(store, caller, b, newId, now);
  }

  // ----- update ------------------------------------------------------------

  /** JavaScript truthiness of an optional string and an optional number. */
  predicate TruthyString(v: Option<string>) {
    v.Some? && v.value != ""
  }

  predicate TruthyNumber(v: Option<int>) {
    v.Some? && v.value != 0
  }

  /**
   * The assignments of the update handler: `type`, `amount`, `category` and
   * `date` only when truthy, `description` whenever it is not `undefined`.
   * Assigning to a string path runs its `trim` setter.
   */
  function ApplyUpdate(t: Transaction, b: Body): Transaction {
    t.(kind := if TruthyString(b.kind) then b.kind.value else t.kind)
     .(amount := if TruthyNumber(b.amount) then b.amount.value else t.amount)
     .(category := if TruthyString(b.category) then Trim(b.category.value) else t.category)
     .(description := if b.description.Some? then Trim(b.description.value) else t.description)
     .(date := if b.date.Some? then b.date.value else t.date)
  }

  /**
   * After validation every supplied field is truthy, so the handler's
   * truthiness tests amount to "the field was supplied": a falsy value never
   * reaches them, because the validators already answered 400.
   */
  lemma ValidatedFieldsAreTruthy(b: Body)
    requires UpdateInputValid(b)
    ensures TruthyString(b.kind) <==> b.kind.Some?
    ensures TruthyNumber(b.amount) <==> b.amount.Some?
    ensures TruthyString(Sanitize(b).category) <==> b.category.Some?
  {
    TrimEmptyIffAllWhitespace(b.category.GetOr(""));
  }

  /**
   * `PUT /:id`: validation (400), then lookup (404), then ownership (403),
   * then the field assignments and `save()`, whose validators failing would
   * be a 500. Loading runs no setters, so an untrimmed stored string is saved
   * as it is.
   */
  function Update(store: Store, caller: UserId, id: Id, b: Body): (o: Outcome<Transaction>)
    ensures o.result.Err? ==> o.store == store
  {
    var errs := ValidateUpdate(b);
    if errs != [] then Outcome(store, Err(BadRequest(errs)))
    else if id !in store then Outcome(store, Err(NotFound))
    else if store[id].user != caller then Outcome(store, Err(Forbidden))
    else
      var t := ApplyUpdate(store[id], Sanitize(b));
      if !SaveValid(t) then Outcome(store, Err(ServerError))
      else Outcome(store[id := t], Ok(t))
  }

  /**
   * The checks come in a fixed order: a body with an unacceptable field is a
   * 400 whatever the id, a valid body with an unknown id is a 404, and only
   * then does ownership give a 403.
   */
  lemma UpdateErrorOrder(store: Store, caller: UserId, id: Id, b: Body)
    ensures var o := Update(store, caller, id, b);
      && (o.result.Err? && o.result.failure.BadRequest? <==> !UpdateInputValid(b))
      && (o.result.Err? && o.result.failure.BadRequest? ==> o.result.failure.errors == ValidateUpdate(b))
      && (o.result == Err(NotFound) <==> UpdateInputValid(b) && id !in store)
      && (o.result == Err(Forbidden) <==> UpdateInputValid(b) && id in store && store[id].user != caller)
  {
    var errs := ValidateUpdate(b);
    assert errs != [] ==> errs[0] in errs;
  }

  /**
   * The updated record of a valid body passes the validators when the old one
   * did, and satisfies the whole schema when the old one did.
   */
  lemma ApplyUpdateKeepsSchema(t: Transaction, b: Body)
    requires UpdateInputValid(b)
    ensures SaveValid(t) ==> SaveValid(ApplyUpdate(t, Sanitize(b)))
    ensures SchemaValid(t) ==> SchemaValid(ApplyUpdate(t, Sanitize(b)))
    ensures t.amount >= 1 ==> ApplyUpdate(t, Sanitize(b)).amount >= 1
  {
    ValidatedFieldsAreTruthy(b);
    var c := b.category.GetOr("");
    TrimIsTrimmed(c);
    TrimEmptyIffAllWhitespace(c);
    TrimIdempotent(c);
    TrimIsTrimmed(b.description.GetOr(""));
  }

  /**
   * The owner's valid update succeeds on a validated store. It replaces
   * exactly the supplied fields (the category and description trimmed, an
   * empty description included), keeps the id, owner and creation time, and
   * touches no other record.
   */
  lemma UpdateByOwner(store: Store, caller: UserId, id: Id, b: Body)
    requires Validated(store)
    ensures var o := Update(store, caller, id, b);
      && (o.result.Ok? <==> UpdateInputValid(b) && id in store && store[id].user == caller)
      && (o.result.Ok? ==>
            var prev := store[id];
            var t := o.result.value;
            && o.store.Keys == store.Keys
            && o.store[id] == t
            && (forall k :: k in store && k != id ==> o.store[k] == store[k])
            && t.id == id && t.user == prev.user && t.createdAt == prev.createdAt
            && t.kind == (if b.kind.Some? then b.kind.value else prev.kind)
            && t.amount == (if b.amount.Some? then b.amount.value else prev.amount)
            && t.category == (if b.category.Some? then Trim(b.category.value) else prev.category)
            && t.description == (if b.description.Some? then Trim(b.description.value) else prev.description)
            && t.date == (if b.date.Some? then b.date.value else prev.date)
            && SaveValid(t)
            && (SchemaValid(prev) ==> SchemaValid(t))
            && (RouteValid(prev) ==> RouteValid(t)))
  {
    UpdateErrorOrder(store, caller, id, b);
    if UpdateInputValid(b) && id in store && store[id].user == caller {
      ValidatedFieldsAreTruthy(b);
      ApplyUpdateKeepsSchema(store[id], b);
      TrimIdempotent(b.category.GetOr(""));
    }
  }

  lemma UpdatePreservesWellFormed(store: Store, caller: UserId, id: Id, b: Body)
    ensures WellFormed(store) ==> WellFormed(Update(store, caller, id, b).store)
    ensures Validated(store) ==> Validated(Update(store, caller, id, b).store)
  {
    var o := Update(store, caller, id, b);
    if o.result.Ok? {
      var t := ApplyUpdate(store[id], Sanitize(b));
      ApplyUpdateKeepsSchema(store[id], b);
      assert o.store == store[id := t] && t.id == store[id].id;
    }
  }

  /**
   * A stored category `" Food "` that never went through the setter: the
   * owner's amount change is saved, and the category stays untrimmed.
   */
  lemma UpdateKeepsUntrimmedCategory()
    ensures var t := Transaction("a", "u", Expense, 500, " Food ", "", Date(2024, 1, 5), Date(2024, 1, 5));
      var o := Update(map["a" := t], "u", "a", Body(None, Some(700), None, None, None, None));
      && !SchemaValid(t)
      && o.result == Ok(t.(amount := 700))
      && o.store == map["a" := t.(amount := 700)]
  {
    var t := Transaction("a", "u", Expense, 500, " Food ", "", Date(2024, 1, 5), Date(2024, 1, 5));
    assert !IsTrimmed(t.category) by {
      assert t.category[0] == ' ';
    }
    assert IsValidDate(Date(2024, 1, 5));
  }

  /** The body's `user` field has no effect on update: ownership never moves. */
  lemma UpdateIgnoresBodyUser(store: Store, caller: UserId, id: Id, b: Body, u: Option<UserId>)
    ensures Update(store, caller, id, b.(user := u)) == Update(store, caller, id, b)
  {
    var b' := b.(user := u);
    assert ValidateUpdate(b') == ValidateUpdate(b);
    if id in store {
      assert ApplyUpdate(store[id], Sanitize(b')) == ApplyUpdate(store[id], Sanitize(b));
    }
  }

  // ----- delete ------------------------------------------------------------

  /** `DELETE /:id`: lookup (404), ownership (403), then `deleteOne()`. */
  function Delete(store: Store, caller: UserId, id: Id): (o: Outcome<()>)
    ensures o.result.Err? ==> o.store == store
    ensures o.result == Err(NotFound) <==> id !in store
    ensures o.result == Err(Forbidden) <==> id in store && store[id].user != caller
    ensures o.result.Ok? <==> id in store && store[id].user == caller
    ensures o.result.Ok? ==>
      && o.store.Keys == store.Keys - {id}
      && forall k :: k in o.store ==> o.store[k] == store[k]
    ensures WellFormed(store) ==> WellFormed(o.store)
    ensures Validated(store) ==> Validated(o.store)
  {
    if id !in store then Outcome(store, Err(NotFound))
    else if store[id].user != caller then Outcome(store, Err(Forbidden))
    else Outcome(store - {id}, Ok(()))
  }

  // ----- queries -----------------------------------------------------------

  /** `ts` lists each of the caller's records exactly once, and nothing else. */
  predicate Enumerates(store: Store, caller: UserId, ts: seq<Transaction>) {
    && (forall i :: 0 <= i < |ts| ==> ts[i].id in store && store[ts[i].id] == ts[i] && ts[i].user == caller)
    && (forall id :: id in store && store[id].user == caller ==> store[id] in ts)
    && (forall i, j :: 0 <= i < j < |ts| ==> ts[i].id != ts[j].id)
  }

  /** Newest first: `sort({ date: -1 })`. */
  predicate NewestFirst(ts: seq<Transaction>) {
    forall i, j :: 0 <= i < j < |ts| ==> DateLe(ts[j].date, ts[i].date)
  }

  /** Places `t` before the first record that is not newer than it. */
  function InsertNewestFirst(t: Transaction, ts: seq<Transaction>): (r: seq<Transaction>)
    requires NewestFirst(ts)
    ensures NewestFirst(r)
    ensures multiset(r) == multiset(ts) + multiset{t}
  {
    if ts == [] || DateLe(ts[0].date, t.date) then
      forall i | 0 <= i < |ts| ensures DateLe(ts[i].date, t.date) {
        if i > 0 {
          DateLeTransitive(ts[i].date, ts[0].date, t.date);
        }
      }
      PrependNewestFirst(t, ts);
      [t] + ts
    else
      var rest := InsertNewestFirst(t, ts[1..]);
      assert ts == [ts[0]] + ts[1..];
      NoLaterThan(rest, ts[1..], t, ts[0].date);
      PrependNewestFirst(ts[0], rest);
      [ts[0]] + rest
  }

  lemma PrependNewestFirst(x: Transaction, ts: seq<Transaction>)
    requires NewestFirst(ts)
    requires forall i :: 0 <= i < |ts| ==> DateLe(ts[i].date, x.date)
    ensures NewestFirst([x] + ts)
  {
    var r := [x] + ts;
    assert forall i :: 0 < i < |r| ==> r[i] == ts[i - 1];
  }

  /** Every record of a rearrangement of `ts` plus `t` is no later than a date that bounds them all. */
  lemma NoLaterThan(r: seq<Transaction>, ts: seq<Transaction>, t: Transaction, d: Date)
    requires multiset(r) == multiset(ts) + multiset{t}
    requires DateLe(t.date, d)
    requires forall i :: 0 <= i < |ts| ==> DateLe(ts[i].date, d)
    ensures forall i :: 0 <= i < |r| ==> DateLe(r[i].date, d)
  {
    forall i | 0 <= i < |r| ensures DateLe(r[i].date, d) {
      var u := r[i];
      assert u in multiset(r);
      if u != t {
        assert u in multiset(ts);
        var k :| 0 <= k < |ts| && ts[k] == u;
      }
    }
  }

  /** `Transaction.find({ user })`: the caller's records, in store order. */
  method Find(store: Store, caller: UserId) returns (r: seq<Transaction>)
    requires IdsMatchKeys(store)
    ensures Enumerates(store, caller, r)
  {
    var remaining := store.Keys;
    r := [];
    while remaining != {}
      invariant remaining <= store.Keys
      invariant forall i :: 0 <= i < |r| ==>
        r[i].id in store && store[r[i].id] == r[i] && r[i].user == caller && r[i].id !in remaining
      invariant forall id :: id in store && id !in remaining && store[id].user == caller ==> store[id] in r
      invariant forall i, j :: 0 <= i < j < |r| ==> r[i].id != r[j].id
      decreases remaining
    {
      var k :| k in remaining;
      if store[k].user == caller {
        r := r + [store[k]];
      }
      remaining := remaining - {k};
    }
  }

  /** `GET /`: the caller's records, newest first. */
  method List(store: Store, caller: UserId) returns (r: seq<Transaction>)
    requires IdsMatchKeys(store)
    ensures Enumerates(store, caller, r)
    ensures NewestFirst(r)
  {
    var found := Find(store, caller);
    r := SortNewestFirst(found);
    PermutationEnumerates(store, caller, found, r);
  }

  /** `sort({ date: -1 })` as an insertion sort: newest first, the same records. */
  method SortNewestFirst(ts: seq<Transaction>) returns (r: seq<Transaction>)
    ensures NewestFirst(r)
    ensures multiset(r) == multiset(ts)
  {
    r := [];
    var i := 0;
    while i < |ts|
      invariant 0 <= i <= |ts|
      invariant NewestFirst(r)
      invariant multiset(r) == multiset(ts[..i])
      decreases |ts| - i
    {
      r := InsertNewestFirst(ts[i], r);
      assert ts[..i + 1] == ts[..i] + [ts[i]];
      i := i + 1;
    }
    assert ts[..i] == ts;
  }

  /** A reordering of an enumeration is an enumeration. */
  lemma PermutationEnumerates(store: Store, caller: UserId, a: seq<Transaction>, b: seq<Transaction>)
    requires Enumerates(store, caller, a)
    requires multiset(a) == multiset(b)
    ensures Enumerates(store, caller, b)
  {
    SameMultisetSameMembers(a, b);
    forall i | 0 <= i < |b|
      ensures b[i].id in store && store[b[i].id] == b[i] && b[i].user == caller
    {
      assert b[i] in b;
      assert b[i] in a;
      var p :| 0 <= p < |a| && a[p] == b[i];
    }
    forall i, j | 0 <= i < j < |b| ensures b[i].id != b[j].id {
      assert b[i] in a && b[j] in a;
      DistinctIdsOccurOnce(a, b[i]);
      RepeatedElementCounts(b, i, j);
    }
  }

  lemma SameMultisetSameMembers<T>(a: seq<T>, b: seq<T>)
    requires multiset(a) == multiset(b)
    ensures forall u :: u in a <==> u in b
  {
    forall u ensures u in a <==> u in b {
      assert u in a <==> u in multiset(a);
      assert u in b <==> u in multiset(b);
    }
  }

  /** An element at two positions is counted at least twice. */
  lemma RepeatedElementCounts<T>(b: seq<T>, i: int, j: int)
    requires 0 <= i < j < |b|
    ensures b[i] == b[j] ==> multiset(b)[b[i]] >= 2
  {
    assert b == b[..i] + [b[i]] + b[i + 1..j] + [b[j]] + b[j + 1..];
  }

  /** In a list with distinct ids, a record occurs at most once. */
  lemma {:induction false} DistinctIdsOccurOnce(a: seq<Transaction>, x: Transaction)
    requires forall i, j :: 0 <= i < j < |a| ==> a[i].id != a[j].id
    ensures multiset(a)[x] <= 1
  {
    if a != [] {
      var a' := a[..|a| - 1];
      assert a == a' + [a[|a| - 1]];
      DistinctIdsOccurOnce(a', x);
      if a[|a| - 1] == x {
        assert x !in a' by {
          forall i | 0 <= i < |a'| ensures a'[i] != x {
            assert a'[i].id != a[|a| - 1].id;
          }
        }
      }
    }
  }

  /** Two enumerations of the caller's records are permutations of each other. */
  lemma EnumerationsArePermutations(store: Store, caller: UserId, a: seq<Transaction>, b: seq<Transaction>)
    requires Enumerates(store, caller, a) && Enumerates(store, caller, b)
    ensures multiset(a) == multiset(b)
  {
    forall x ensures x in a <==> x in b {
      if x in a {
        var i :| 0 <= i < |a| && a[i] == x;
        assert store[x.id] == x;
      }
      if x in b {
        var i :| 0 <= i < |b| && b[i] == x;
        assert store[x.id] == x;
      }
    }
    DistinctSameElements(a, b);
  }

  /**
   * `GET /summary`: the reduce over whatever order the store returns. The
   * totals are those of every enumeration of the caller's records.
   */
  method SummaryRoute(store: Store, caller: UserId) returns (s: Summary)
    requires IdsMatchKeys(store)
    ensures s.balance == s.totalIncome - s.totalExpense
    ensures forall ts :: Enumerates(store, caller, ts) ==>
      s.totalIncome == Sum(ts, IncomeAmount) && s.totalExpense == Sum(ts, OtherAmount)
  {
    var found := Find(store, caller);
    s := ComputeSummary(found);
    SummaryIsSums(found);
    forall ts | Enumerates(store, caller, ts)
      ensures s.totalIncome == Sum(ts, IncomeAmount) && s.totalExpense == Sum(ts, OtherAmount)
    {
      EnumerationsArePermutations(store, caller, found, ts);
      SumPermutation(found, ts, IncomeAmount);
      SumPermutation(found, ts, OtherAmount);
    }
  }
  // ----- the listing after a change ----------------------------------------

  /** `ts` without the record whose id is `id`, order kept. */
  function WithoutId(ts: seq<Transaction>, id: Id): seq<Transaction> {
    if ts == [] then []
    else (if ts[0].id == id then [] else [ts[0]]) + WithoutId(ts[1..], id)
  }

  lemma {:induction false} WithoutIdMembers(ts: seq<Transaction>, id: Id)
    ensures forall u :: u in WithoutId(ts, id) <==> u in ts && u.id != id
  {
    if ts != [] {
      WithoutIdMembers(ts[1..], id);
      assert ts == [ts[0]] + ts[1..];
    }
  }

  /** Removing the one record with a given id from a list with distinct ids shortens it by one. */
  lemma {:induction false} WithoutIdLength(ts: seq<Transaction>, id: Id)
    requires forall i, j :: 0 <= i < j < |ts| ==> ts[i].id != ts[j].id
    ensures |WithoutId(ts, id)| == (if exists k :: 0 <= k < |ts| && ts[k].id == id then |ts| - 1 else |ts|)
  {
    if ts != [] {
      WithoutIdLength(ts[1..], id);
      if ts[0].id == id {
        assert forall k :: 0 <= k < |ts[1..]| ==> ts[1..][k].id != id by {
          forall k | 0 <= k < |ts[1..]| ensures ts[1..][k].id != id {
            assert ts[1..][k] == ts[k + 1];
          }
        }
      } else if exists k :: 0 <= k < |ts| && ts[k].id == id {
        var k :| 0 <= k < |ts| && ts[k].id == id;
        assert ts[1..][k - 1].id == id;
      } else {
        assert forall k :: 0 <= k < |ts[1..]| ==> ts[1..][k].id != id by {
          forall k | 0 <= k < |ts[1..]| ensures ts[1..][k].id != id {
            assert ts[1..][k] == ts[k + 1];
          }
        }
      }
    }
  }

  /** After a successful create, the caller's earlier listing plus the new record lists the store. */
  lemma CreateExtendsListing(store: Store, caller: UserId, b: Body, newId: Id, now: Date, ts: seq<Transaction>)
    requires Enumerates(store, caller, ts)
    ensures var o := Create(store, caller, b, newId, now);
      o.result.Ok? ==> Enumerates(o.store, caller, ts + [o.result.value])
  {
    CreateSucceeds(store, caller, b, newId, now);
    var o := Create(store, caller, b, newId, now);
    if o.result.Ok? {
      var t := o.result.value;
      var r := ts + [t];
      var s' := store[newId := t];
      assert o.store == s' && t.id == newId && t.user == caller && newId !in store;
      forall i | 0 <= i < |r| ensures r[i].id in s' && s'[r[i].id] == r[i] && r[i].user == caller {
        if i < |ts| {
          assert r[i] == ts[i] && ts[i].id in store;
        }
      }
      forall id | id in s' && s'[id].user == caller ensures s'[id] in r {
        if id != newId {
          assert store[id] in ts;
          var k :| 0 <= k < |ts| && ts[k] == store[id];
          assert r[k] == ts[k];
        } else {
          assert r[|ts|] == t;
        }
      }
      forall i, j | 0 <= i < j < |r| ensures r[i].id != r[j].id {
        assert r[i] == ts[i] && ts[i].id in store;
        if j < |ts| {
          assert r[j] == ts[j];
        }
      }
    }
  }

  /**
   * After a successful delete, the caller's earlier listing without the
   * deleted record lists the store, and is one shorter.
   */
  lemma DeleteShrinksListing(store: Store, caller: UserId, id: Id, ts: seq<Transaction>)
    requires IdsMatchKeys(store) && Enumerates(store, caller, ts)
    ensures var o := Delete(store, caller, id);
      o.result.Ok? ==> Enumerates(o.store, caller, WithoutId(ts, id)) && |WithoutId(ts, id)| == |ts| - 1
  {
    var o := Delete(store, caller, id);
    if o.result.Ok? {
      var r := WithoutId(ts, id);
      WithoutIdMembers(ts, id);
      WithoutIdLength(ts, id);
      assert store[id] in ts;
      var k :| 0 <= k < |ts| && ts[k] == store[id];
      assert ts[k].id == id;
      forall i | 0 <= i < |r|
        ensures r[i].id in o.store && o.store[r[i].id] == r[i] && r[i].user == caller
      {
        assert r[i] in r;
        var p :| 0 <= p < |ts| && ts[p] == r[i];
      }
      forall i, j | 0 <= i < j < |r| ensures r[i].id != r[j].id {
        WithoutIdDistinct(ts, id, i, j);
      }
    }
  }

  /** No listing of the caller's records after a successful delete contains the deleted id. */
  lemma ListingAfterDeleteOmits(store: Store, caller: UserId, id: Id, ts: seq<Transaction>)
    requires Delete(store, caller, id).result.Ok?
    requires Enumerates(Delete(store, caller, id).store, caller, ts)
    ensures forall i :: 0 <= i < |ts| ==> ts[i].id != id
  {
    var o := Delete(store, caller, id);
    assert id !in o.store;
  }

  lemma {:induction false} WithoutIdDistinct(ts: seq<Transaction>, id: Id, i: int, j: int)
    requires forall p, q :: 0 <= p < q < |ts| ==> ts[p].id != ts[q].id
    requires 0 <= i < j < |WithoutId(ts, id)|
    ensures WithoutId(ts, id)[i].id != WithoutId(ts, id)[j].id
  {
    var r := WithoutId(ts, id);
    var rest := WithoutId(ts[1..], id);
    TailIdsDistinct(ts);
    if ts[0].id == id {
      assert r == rest;
      WithoutIdDistinct(ts[1..], id, i, j);
    } else if i == 0 {
      HeadIdNotLater(ts, id, j);
    } else {
      assert r[i] == rest[i - 1] && r[j] == rest[j - 1];
      WithoutIdDistinct(ts[1..], id, i - 1, j - 1);
    }
  }

  lemma TailIdsDistinct(ts: seq<Transaction>)
    requires ts != []
    requires forall p, q :: 0 <= p < q < |ts| ==> ts[p].id != ts[q].id
    ensures forall p, q :: 0 <= p < q < |ts[1..]| ==> ts[1..][p].id != ts[1..][q].id
  {
    forall p, q | 0 <= p < q < |ts[1..]| ensures ts[1..][p].id != ts[1..][q].id {
      assert ts[1..][p] == ts[p + 1] && ts[1..][q] == ts[q + 1];
    }
  }

  lemma HeadIdNotLater(ts: seq<Transaction>, id: Id, j: int)
    requires ts != [] && ts[0].id != id
    requires forall p, q :: 0 <= p < q < |ts| ==> ts[p].id != ts[q].id
    requires 0 < j < |WithoutId(ts, id)|
    ensures WithoutId(ts, id)[0].id != WithoutId(ts, id)[j].id
  {
    var r := WithoutId(ts, id);
    var rest := WithoutId(ts[1..], id);
    assert r == [ts[0]] + rest;
    WithoutIdMembers(ts[1..], id);
    assert rest[j - 1] in rest;
    var k :| 0 <= k < |ts[1..]| && ts[1..][k] == rest[j - 1];
    assert ts[k + 1] == r[j];
  }
}

=== FILE: wrappers.dfy ===
/**
 * An optional value: a path or body field that is present with a value, or
 * absent (`undefined`).
 */
module Wrappers {

  datatype Option<T> = None | Some(value: T) {
    function GetOr(default: T): T {
      match this
      case Some(v) => v
      case None => default
    }
  }
}
